=== FILE: README.md ===
# arxiv.py as a Dafny model

`arxiv.py` prepares a LaTeX paper for upload to arXiv. It copies the `paper`
directory into a scratch directory `tmp` and flattens the copy so that every
file sits at the root. It removes every occurrence of `figures/` from the `.tex` sources
and deletes their comment lines. It appends a `\typeout` directive that makes
arXiv run four passes. It then compiles the document with
pdflatex, bibtex, pdflatex, pdflatex, and waits for the operator. Finally it
deletes the build byproducts and writes `ax.zip` with the remaining files.

The model treats a directory tree as a value. `Workspace.Files` maps a path,
given as its list of components, to the file's contents. Every step of the
script is a pure function from one such value to the next:

- `text.dfy` (`Text`): the Python string operations the script relies on.
  These are `str.isspace`, `strip`, `startswith`/`endswith`, `replace`
  (non-overlapping, left to right), and `readlines`/`writelines` as
  `SplitLines`/`Concat`.
- `workspace.dfy` (`Workspace`): paths, the order a top-down `os.walk` may
  yield, `clean_tmp_directory` and `create_deep_copy`.
- `flatten.dfy` (`Flatten`): `flatten_directory` as a sequence of moves in walk
  order, and `remove_subdirectories`.
- `texpasses.dfy` (`TexPasses`): `update_tex_files`,
  `remove_comments_from_tex_files` and `add_arxiv_command`.
- `compile.dfy` (`Compile`): `compile_document` and `compile_document_full`.
  They are modelled as the list of commands issued and the way the run ended.
  The exit status of each command is supplied as input.
- `cleanup.dfy` (`Cleanup`): `remove_unnecessary_files`, including the two
  exceptions it can raise on an unusual workspace.
- `archive.dfy` (`Archive`): `create_zipfile`, as its list of entries.
- `pipeline.dfy` (`Pipeline`): `main`, the composition of all the steps.

Some facts about the file system are not computed here; they are inputs.
The first is the order `os.walk` visits files. It is constrained by
`Workspace.ValidWalk`: each file exactly once, and root files before the
files of sub-directories. The second is the exit status of each compile
command. The third is the files the toolchain writes when it succeeds.

## Model

| member | source | states |
|---|---|---|
| Workspace.CleanTmpDirectory | arxiv.py:11-14 | whatever the scratch directory held before, it is empty afterwards |
| Workspace.ValidWalk | arxiv.py:19 | what a top-down `os.walk` promises about its order, as used at lines 19, 29 and 99: every file once, nothing else, root files first (definition; its properties are the walk lemmas: DeepCopyOverlays, FlattenInvariant, ArchiveListsWalked and those built on them) |
| Workspace.CreateDeepCopy | arxiv.py:16-26 | each walked source file, in walk order, written at the same relative path in the destination; this is what `create_deep_copy` does when no destination file sits where the paper has a directory, or the reverse (definition; its properties are the two rows below) |
| Workspace.DeepCopyOverlays | arxiv.py:16-26 | into a destination that does not clash with the paper on a file/directory path, copying the files a walk lists overlays the destination with exactly those source files at the same relative paths |
| Workspace.CleanThenCopyIsExact | arxiv.py:11-26 | after cleaning and copying over a complete walk, the scratch workspace is exactly the paper: same paths, same contents |
| Flatten.FlattenDirectory | arxiv.py:28-33 | the moves of `flatten_directory`, one per walked file, in walk order (definition; its properties are FlattenInvariant and FlattenThenRemove) |
| Flatten.Move | arxiv.py:31-33 | a moved file appears at the root under its base name with its contents and leaves its old path; every other file is unchanged, except one at that root name, which is replaced |
| Flatten.RemoveSubdirectories | arxiv.py:35-37 | only root files remain, and each root file is kept with its contents |
| Flatten.LastWriter | arxiv.py:29-33 | the index of the last walked file with a given base name, or -1; no later file has that base name |
| Flatten.FlattenInvariant | arxiv.py:29-33 | after any prefix of the walk, unwalked nested files are untouched; the root names are exactly the original root files plus the base names moved so far; each holds the contents of its last writer so far, or its original contents when there is none |
| Flatten.FlattenThenRemove | arxiv.py:28-37 | on a paper where no file's base name names a root directory, after flattening every file is at the root and removing sub-directories changes nothing; a root name exists iff some paper file has that base name, and it holds the contents of the last such file walked; no file remains below any sub-directory, `.git` and `.vscode` included |
| Flatten.NestedOverwritesRoot | arxiv.py:28-33 | a nested `sub/a.tex` overwrites the root `a.tex`, because the root is walked first |
| Text.IsSpace | arxiv.py:55 | the code points `str.isspace` accepts, which decide what `strip()` removes (definition; its properties are TrimLeftSpec and TrimRightSpec) |
| Text.TrimLeft | arxiv.py:55 | `lstrip()` (definition; its property is TrimLeftSpec) |
| Text.TrimRight | arxiv.py:55 | `rstrip()` (definition; its property is TrimRightSpec) |
| Text.Strip | arxiv.py:55 | `str.strip()` as `lstrip` then `rstrip` (definition; its properties are the two rows below and TexPasses.CommentLineIff) |
| Text.TrimLeftSpec | arxiv.py:55 | `lstrip` removes exactly the longest all-white-space prefix |
| Text.TrimRightSpec | arxiv.py:55 | `rstrip` removes exactly the longest all-white-space suffix |
| Text.CountOccurrences | arxiv.py:45 | the number of non-overlapping occurrences is zero exactly when the pattern does not occur, and together they fit in the text |
| Text.ShiftOccurs | arxiv.py:45 | when the text does not start with the pattern, dropping its first character keeps the pattern's occurrence status |
| Text.ReplaceAll | arxiv.py:45 | `str.replace` with a non-empty pattern: non-overlapping occurrences found left to right (definition; its properties are the rows around it) |
| Text.ReplaceAllLength | arxiv.py:45 | `replace` changes the length by the length difference of pattern and replacement, once per occurrence |
| Text.ReplaceAbsent | arxiv.py:45 | text without the pattern is returned unchanged |
| Text.ReplaceSkipsPrefix | arxiv.py:45 | a prefix without the pattern's first character passes through `replace` unchanged |
| Text.RemoveAllIdentityIff | arxiv.py:45 | deleting a pattern leaves a text unchanged iff the pattern does not occur in it |
| Text.Concat | arxiv.py:57 | `writelines`: the lines written one after another (definition; its properties are ConcatAppend, SplitLinesConcat and SplitConcat) |
| Text.ConcatAppend | arxiv.py:57 | writing two line lists one after the other writes their concatenation |
| Text.FirstLineLength | arxiv.py:54 | the first line runs up to and including the first newline, or to the end of the text |
| Text.FirstLineLengthIs | arxiv.py:54 | that cut is unique |
| Text.SplitLines | arxiv.py:54 | `readlines()`: the text cut after each newline (definition; its properties are the rows below) |
| Text.SplitLinesConcat | arxiv.py:54-57 | writing back the lines read from a text reproduces the text |
| Text.SplitLinesWellFormed | arxiv.py:54 | every line read is non-empty and holds a newline only at its end, and every line except the last ends with one |
| Text.SplitLinesAppend | arxiv.py:54 | reading a text that is split at a line boundary reads the two parts independently |
| Text.SplitOneLine | arxiv.py:54 | a text with no newline before its last character is read as one line |
| Text.SplitConcat | arxiv.py:54-57 | reading back written well-formed lines gives the same lines |
| TexPasses.IsTexFile | arxiv.py:41 | the `file.endswith(".tex")` test on a root name (repeated at line 51), which selects the files both text passes rewrite (definition; its properties are UpdateTexFiles and RemoveCommentsFromTexFiles) |
| TexPasses.RewriteFigurePaths | arxiv.py:45 | `content.replace('figures/', '')` (definition; its properties are the rows below) |
| TexPasses.RewriteFigurePathsEffect | arxiv.py:45 | the rewrite shortens a text by 8 characters per occurrence of `figures/`, and leaves it unchanged iff `figures/` does not occur |
| TexPasses.RewriteFigureReference | arxiv.py:45 | `figures/foo.png` becomes `foo.png` |
| TexPasses.RewriteInContext | arxiv.py:45 | text before a `figures/` prefix is kept when it holds no `f`, and the rewrite continues after the prefix |
| TexPasses.RewriteNotIdempotent | arxiv.py:45 | removing one occurrence can create a new one: `figfigures/ures/` becomes `figures/`, which a second run would empty |
| TexPasses.UpdateTexFiles | arxiv.py:39-47 | same file names; non-`.tex` files unchanged; each `.tex` file shortened by 8 per `figures/` occurrence, and unchanged when there is none |
| TexPasses.IsCommentLine | arxiv.py:55 | the filter test `line.strip().startswith('%')` (definition; its properties are CommentLineIff and CommentLineIffExists) |
| TexPasses.FirstNonSpace | arxiv.py:55 | the index of the first character that is not white space, or the length when there is none |
| TexPasses.CommentLineIff | arxiv.py:55 | a line is dropped iff its first character that is not white space is `%` |
| TexPasses.CommentLineIffExists | arxiv.py:55 | the same, with that character given by a quantifier over positions |
| TexPasses.NotCommentByFirstChar | arxiv.py:55 | a line starting with a character that is neither white space nor `%` is kept |
| TexPasses.KeptLines | arxiv.py:55 | white-space-only lines and lines starting with an escaped `\%` are kept |
| TexPasses.StripComments | arxiv.py:55 | the kept list is no longer than the input, and none of its lines is a comment line |
| TexPasses.StripCommentsMembership | arxiv.py:55 | a line is kept iff it is in the input and is not a comment line |
| TexPasses.StripCommentsIsSubsequence | arxiv.py:55 | the kept lines are a subsequence of the input, in their original order |
| TexPasses.StripCommentsIdempotent | arxiv.py:55 | filtering twice is filtering once |
| TexPasses.StripCommentsAppend | arxiv.py:55 | filtering distributes over concatenation of line lists |
| TexPasses.StripCommentsWellFormed | arxiv.py:54-55 | the kept lines of a `readlines` result still have its shape |
| TexPasses.StripCommentLines | arxiv.py:53-57 | read the lines, keep the non-comment ones, write them back (definition; its properties are the two rows below) |
| TexPasses.StripCommentLinesIdempotent | arxiv.py:53-57 | running the comment pass on a file twice gives the same text as running it once |
| TexPasses.StripCommentLinesKeeps | arxiv.py:53-57 | the written file reads back as exactly the non-comment lines of the original, in order |
| TexPasses.RemoveCommentsFromTexFiles | arxiv.py:49-57 | same file names; non-`.tex` files unchanged; each `.tex` file reads back as its non-comment lines |
| TexPasses.AddArxivCommand | arxiv.py:59-61 | the main file gets the old contents (empty if the file was missing) followed by a newline and the directive; no other file changes |
| TexPasses.AppendedDirective | arxiv.py:59-61 | the main file afterwards is exactly its old contents (nothing if it was missing) followed by a newline and the directive |
| TexPasses.DirectiveIsNotComment | arxiv.py:55-61 | the directive is not a comment line |
| TexPasses.DirectiveIsOneLine | arxiv.py:61 | the directive is read back as a single line |
| TexPasses.DirectiveSurvivesStrip | arxiv.py:55-61 | a comment pass over the main file after the directive is appended keeps the directive as its last line |
| Compile.Pdflatex | arxiv.py:65 | the pdflatex command line with its three flags, the same at lines 75, 77 and 78 (definition; its properties are QuickRun and FullRunOrder) |
| Compile.BibtexArgument | arxiv.py:76 | `main_tex_file.replace('.tex', '')` (definition; its properties are BibtexArgumentOfMain and BibtexArgumentInner) |
| Compile.Bibtex | arxiv.py:76 | the bibtex command line (definition; its properties are FullRunOrder and BibtexFailureStops) |
| Compile.QuickCommands | arxiv.py:64-66 | the command list of `compile_document`, one pdflatex pass (definition; its property is QuickRun) |
| Compile.FullCommands | arxiv.py:74-79 | the command list of `compile_document_full` (definition; its properties are FullRunOrder and BibtexFailureStops) |
| Compile.FirstNonZero | arxiv.py:67-71 | the index of the first non-zero exit status; all earlier statuses are zero |
| Compile.Execute | arxiv.py:80-84 | the run completes iff every status is zero, and then issues every command; otherwise it stops at the first non-zero status, issuing the commands up to and including that one |
| Compile.CompileDocument | arxiv.py:63-71 | the single pdflatex command run under the shared stop-at-first-failure loop (definition; its property is QuickRun) |
| Compile.CompileDocumentFull | arxiv.py:73-84 | the four commands run under the same loop (definition; its properties are FullRunOrder and BibtexFailureStops) |
| Compile.FullRunOrder | arxiv.py:73-84 | a successful full compile issues pdflatex, bibtex, pdflatex, pdflatex, in that order |
| Compile.BibtexFailureStops | arxiv.py:76-84 | a failing bibtex ends the run before the two later pdflatex passes |
| Compile.QuickRun | arxiv.py:63-71 | the quick mode issues one pdflatex pass and fails iff it returns non-zero |
| Compile.BibtexArgumentOfMain | arxiv.py:76 | `bibtex` receives `main` for `main.tex` |
| Compile.BibtexArgumentInner | arxiv.py:76 | every `.tex` is removed, not only a trailing one: `a.tex.tex` gives `a` |
| Cleanup.IsByproduct | arxiv.py:87-89 | the `any(file.endswith(ext) ...)` test over the nine listed extensions (definition; its properties are ByproductBySuffix, SourcesAreKept and ByproductExamples) |
| Cleanup.RemoveUnnecessaryFiles | arxiv.py:86-94 | the cleanup, with its two exceptions |
| Cleanup.ByproductBySuffix | arxiv.py:87-89 | the `any(endswith)` test holds iff the name's last four characters are one of `.aux .log .out .blg .toc .lot .lof .pdf .bib` |
| Cleanup.CleanupRaises | arxiv.py:86-94 | the cleanup raises iff some root directory's name ends in a listed extension (`os.remove` on a directory) or a root file is named `.git` or `.vscode` (`rmtree` on a file) |
| Cleanup.CleanupKeeps | arxiv.py:86-94 | otherwise the result is a part of the workspace with unchanged contents: a root file survives iff its name does not end in a listed extension, and a nested file survives iff it is not inside `.git` or `.vscode` |
| Cleanup.SourcesAreKept | arxiv.py:87-90 | `.tex` and `.bbl` files are never removed |
| Cleanup.CleanupIdempotent | arxiv.py:86-94 | a second cleanup changes nothing |
| Cleanup.CleanupOfFlatWorkspace | arxiv.py:86-94 | on a flat workspace without `.git`/`.vscode` files, the cleanup succeeds and keeps a file iff it is not a byproduct |
| Cleanup.ByproductExamples | arxiv.py:87-90 | `.aux`, `.pdf` and `.bib` files are byproducts; `.tex` files are not |
| Archive.ArchiveEntries | arxiv.py:96-102 | every entry is a walked workspace file not named `ax.zip`, with its contents; there are no more entries than walked files |
| Archive.ArchiveListsWalked | arxiv.py:99-102 | a path is listed iff it was walked, is a workspace file, and is not named `ax.zip` |
| Archive.ArchiveNamesDistinct | arxiv.py:99-102 | over a walk without repeats, no file is listed twice |
| Archive.ArchiveListsExactly | arxiv.py:96-102 | over a valid walk, the archive lists exactly the workspace files not named `ax.zip`, each once, with their contents, and never itself |
| Archive.ArchiveListsDirectory | arxiv.py:96-102 | the directory walked already holds `ax.zip`, created before the walk starts; over any valid walk of the workspace plus that file, whatever it holds so far, the archive lists exactly the workspace files not named `ax.zip`, each once, with their contents |
| Pipeline.Finish | arxiv.py:118-119 | cleanup, then the archive of what is left (definition; its property is FinishArchives) |
| Pipeline.FinishArchives | arxiv.py:118-119 | on a flat workspace holding the main file and no `.git`/`.vscode` file, the cleanup succeeds and keeps exactly the files that are not byproducts, the main file among them, each with its contents; over any valid walk of the cleaned files plus the `ax.zip` being written, the archive lists exactly the cleaned files other than `ax.zip`, each once, with their contents |
| Pipeline.FinishCompiled | arxiv.py:114-119 | the same for a flat prepared workspace plus the root files the toolchain writes: the main file keeps its prepared contents through the cleanup |
| Pipeline.Flattened | arxiv.py:105-108 | clean, copy, flatten, remove sub-directories (definition; its property is FlattenedPaper) |
| Pipeline.TextPasses | arxiv.py:109-111 | the `figures/` rewrite, the comment pass and the directive (definition; its properties are TextPassesMain and TextPassesOthers) |
| Pipeline.Prepare | arxiv.py:105-111 | the seven steps before compilation, as `Flattened` then `TextPasses` (definition; its properties are the rows below) |
| Pipeline.Main | arxiv.py:104-119 | preparation, full compile, then either exit status 1 or cleanup and archive (definition; its properties are MainAbortsIffCompileFails, MainSucceeds and MainArchives) |
| Pipeline.MainAbortsIffCompileFails | arxiv.py:104-119 | `main` aborts with status 1 iff some compile command fails; it has then issued the commands up to the failing one and has not cleaned or archived |
| Pipeline.FlattenedPaper | arxiv.py:105-108 | on a paper without a directory-name clash, cleaning, copying, flattening and removing sub-directories give the paper's own files, flattened |
| Pipeline.TextPassesMain | arxiv.py:109-111 | after the three text passes the main file is its flat contents, rewritten and stripped (nothing when it was missing), followed by the directive |
| Pipeline.TextPassesOthers | arxiv.py:109-111 | the text passes add the main file, rewrite and strip every other `.tex` file, and leave every other file unchanged |
| Pipeline.PreparedMain | arxiv.py:105-111 | the prepared main file is the contents of the last walked `main.tex`, rewritten and stripped (nothing when the paper has none), followed by the directive |
| Pipeline.PreparedFlat | arxiv.py:105-111 | the prepared workspace is flat, holds the main file, and holds no `.git` or `.vscode` file when no paper file has such a base name |
| Pipeline.PreparedShape | arxiv.py:105-111 | the prepared workspace is flat; it holds one file per base name of the paper, plus the main file, whose contents are as in PreparedMain; every other file holds its last writer's contents, with `.tex` files rewritten and stripped |
| Pipeline.MainSucceeds | arxiv.py:104-119 | when every compile command succeeds and no `.git`/`.vscode` name is involved, `main` archives: of the prepared and compiled files, exactly those that are not byproducts remain, each with its contents; the main file is as in PreparedMain |
| Pipeline.MainIsFinish | arxiv.py:104-119 | when every compile command returns zero, `main` goes on to cleanup and archiving of the prepared workspace plus the toolchain's files |
| Pipeline.MainArchives | arxiv.py:104-119 | in the same situation, over any valid walk of the cleaned directory plus the `ax.zip` being written, the archive lists exactly the cleaned files other than `ax.zip`, each once, with their contents |

## Left out

- File-system I/O, `os.path.exists` and `os.makedirs` are not modelled. The workspace is a map value, and a directory exists while some file lies under it. Empty directories are not represented.
- The order of `os.walk` and `os.listdir` is an input (`ValidWalk`) rather than computed. `os.walk` lists each directory only when it reaches it; without a directory-name clash no file is moved into a directory, so the files it yields are the files present at the start. `os.listdir` order does not matter to the passes, because they act on each file independently.
- `Workspace.CreateDeepCopy`, `Workspace.DeepCopyOverlays`: copying into a destination that clashes with the paper is not modelled as the program behaves. If the destination holds a file `a` and the paper has `a/b`, `makedirs` is skipped and `copy2` raises `NotADirectoryError`. If the destination has a directory `a` and the paper a file `a`, `copy2` writes `a/a`. The model overlays in both cases, so `DeepCopyOverlays` requires `Workspace.NoPathClash`. Within `main` the copy always goes into a freshly cleaned, empty directory (`Workspace.CleanThenCopyIsExact`), where no clash can arise.
- `shutil.copy2` metadata (timestamps, permissions) is not modelled; only contents are copied.
- `Flatten.Move`: when a nested file's base name is the name of a root directory, `shutil.move` does not replace anything. If that directory already holds an entry of that name, the move raises `shutil.Error` (a file `figures/figures` is one case: its destination is itself). Otherwise the file ends up inside the directory, and `remove_subdirectories` later deletes it; which of the two happens can depend on the walk order. `Move` replaces the root entry instead.
- `Flatten.FlattenThenRemove`, `Pipeline.FlattenedPaper`, `Pipeline.PreparedMain`, `Pipeline.PreparedShape`, `Pipeline.PreparedFlat`, `Pipeline.MainSucceeds`, `Pipeline.MainArchives`: these require `Flatten.NoDirectoryClash`, i.e. no file's base name is the name of a root directory. On a paper with such a clash the model's flattening (which keeps the clashing file at the root) is not what the program does, so nothing is promised there.
- `Text.ReplaceAll`: the pattern must be non-empty. The source only calls `replace` with `figures/` and `.tex`, so Python's empty-pattern behaviour is not modelled.
- Newline translation in text mode and file encodings are not modelled: contents are `seq<char>`. On reading, Python translates `\r\n` and a lone `\r` to `\n`, so a lone `\r` also ends a line for the comment pass; the model only splits at `\n`.
- The typesetting tools are not modelled. `subprocess.run` is replaced by a supplied exit status per command. A successful compile adds a supplied set of `artifacts` to the workspace. The files written by a failed compile are not modelled, because the run ends there.
- `exit(1)` ends the model with `Aborted(..., 1)`. The `print` calls and the `input()` wait do not change the files and are omitted.
- `compile_document` is modelled (`Compile.CompileDocument`) even though `main` does not call it.
- `Archive.ArchiveEntries`: the zip container, DEFLATE compression and the joining of path components into archive names are not modelled. The archive is its list of entries, and the written `ax.zip` is not added back to the workspace. The walk does see the partly written `ax.zip`; its contents are a free parameter (`partial`) of the archive lemmas, and the filter on the name `ax.zip` leaves it out.
- `TexPasses.UpdateTexFiles`, `TexPasses.RemoveCommentsFromTexFiles`: a root directory whose name ends in `.tex` is skipped, whereas `open()` on it raises `IsADirectoryError`. Within `main` the case cannot arise, because after flattening and `remove_subdirectories` no directory is left (`Flatten.FlattenThenRemove`).
- Cleanup of `.git`/`.vscode`: after flattening, no sub-directory survives (`Flatten.FlattenThenRemove`), so within `main` these two removals never find a directory. Files from those directories have already been moved to the root under their own names.

=== FILE: archive.dfy ===
/**
 `create_zipfile`: the archive is written inside the workspace it lists, so
 the walk skips every file named `ax.zip`. Only the list of entries (name
 and contents) is modelled, not the zip container or its compression.
 */
module Archive {
  import opened Workspace

  /** The archive's file name, at the workspace root. */
  const ArchiveName: string := "ax.zip"

  /** One archive member: its path relative to the workspace root, and its contents. */
  datatype Entry = Entry(name: Path, content: string)

  /** The entries written, in walk order: every walked file except those named `ax.zip`. */
  function ArchiveEntries(ws: Files, walk: seq<Path>): (entries: seq<Entry>)
    ensures |entries| <= |walk|
    ensures forall i | 0 <= i < |entries| ::
              && entries[i].name in ws
              && entries[i].content == ws[entries[i].name]
              && Base(entries[i].name) != ArchiveName
              && entries[i].name in walk
    decreases |walk|
  {
    if |walk| == 0 then []
    else
      var p := walk[|walk| - 1];
      var earlier := ArchiveEntries(ws, walk[..|walk| - 1]);
      assert forall i | 0 <= i < |earlier| :: earlier[i].name in walk by {
        assert walk == walk[..|walk| - 1] + [p];
      }
      if p in ws && Base(p) != ArchiveName then earlier + [Entry(p, ws[p])] else earlier
  }

  /** A walked file is listed exactly when it is a file of the workspace not named `ax.zip`. */
  lemma {:induction false} ArchiveListsWalked(ws: Files, walk: seq<Path>, p: Path)
    ensures (exists i | 0 <= i < |ArchiveEntries(ws, walk)| :: ArchiveEntries(ws, walk)[i].name == p)
            <==> p in walk && p in ws && Base(p) != ArchiveName
    decreases |walk|
  {
    if |walk| > 0 {
      var init := walk[..|walk| - 1];
      var q := walk[|walk| - 1];
      ArchiveListsWalked(ws, init, p);
      assert walk == init + [q];
      var earlier := ArchiveEntries(ws, init);
      if q in ws && Base(q) != ArchiveName {
        var entries := earlier + [Entry(q, ws[q])];
        assert ArchiveEntries(ws, walk) == entries;
        assert entries[|earlier|].name == q;
        assert forall i | 0 <= i < |earlier| :: entries[i] == earlier[i];
        if exists i | 0 <= i < |entries| :: entries[i].name == p {
          var i :| 0 <= i < |entries| && entries[i].name == p;
          if i < |earlier| {
            assert earlier[i].name == p;
          }
        }
        if p == q {
          assert entries[|earlier|].name == p;
        } else if p in init && p in ws && Base(p) != ArchiveName {
          var i :| 0 <= i < |earlier| && earlier[i].name == p;
          assert entries[i].name == p;
        }
      } else {
        assert ArchiveEntries(ws, walk) == earlier;
        assert p in walk <==> p in init || p == q;
      }
    }
  }

  /** Files listed in the archive appear in the order the walk visited them, each once. */
  lemma {:induction false} ArchiveNamesDistinct(ws: Files, walk: seq<Path>)
    requires forall i, j | 0 <= i < j < |walk| :: walk[i] != walk[j]
    ensures forall i, j | 0 <= i < j < |ArchiveEntries(ws, walk)| ::
              ArchiveEntries(ws, walk)[i].name != ArchiveEntries(ws, walk)[j].name
    decreases |walk|
  {
    if |walk| > 0 {
      var init := walk[..|walk| - 1];
      var q := walk[|walk| - 1];
      ArchiveNamesDistinct(ws, init);
      var earlier := ArchiveEntries(ws, init);
      assert forall i | 0 <= i < |earlier| :: earlier[i].name != q by {
        assert forall i | 0 <= i < |earlier| :: earlier[i].name in init;
        assert q !in init;
      }
    }
  }

  /**
   Over a valid walk, the archive lists exactly the workspace's files other
   than those named `ax.zip`, each once, with their contents; in particular
   it never lists itself.
   */
  lemma ArchiveListsExactly(ws: Files, walk: seq<Path>)
    requires ValidWalk(ws, walk)
    ensures forall p :: (exists i | 0 <= i < |ArchiveEntries(ws, walk)| :: ArchiveEntries(ws, walk)[i].name == p)
                        <==> p in ws && Base(p) != ArchiveName
    ensures forall i, j | 0 <= i < j < |ArchiveEntries(ws, walk)| ::
              ArchiveEntries(ws, walk)[i].name != ArchiveEntries(ws, walk)[j].name
    ensures forall i | 0 <= i < |ArchiveEntries(ws, walk)| ::
              ArchiveEntries(ws, walk)[i].content == ws[ArchiveEntries(ws, walk)[i].name]
    ensures forall i | 0 <= i < |ArchiveEntries(ws, walk)| :: ArchiveEntries(ws, walk)[i].name != [ArchiveName]
  {
    forall p
      ensures (exists i | 0 <= i < |ArchiveEntries(ws, walk)| :: ArchiveEntries(ws, walk)[i].name == p)
              <==> p in ws && Base(p) != ArchiveName
    {
      ArchiveListsWalked(ws, walk, p);
    }
    ArchiveNamesDistinct(ws, walk);
  }

  /**
   The directory `create_zipfile` walks already holds the archive it is
   writing. Over a valid walk of that directory (the workspace plus `ax.zip`
   at the root, whatever its contents so far), the archive lists exactly the
   workspace's files other than those named `ax.zip`, each once, with their
   contents.
   */
  lemma ArchiveListsDirectory(ws: Files, walk: seq<Path>, partial: string)
    requires ValidWalk(ws[[ArchiveName] := partial], walk)
    ensures forall p :: (exists i | 0 <= i < |ArchiveEntries(ws, walk)| :: ArchiveEntries(ws, walk)[i].name == p)
                        <==> p in ws && Base(p) != ArchiveName
    ensures forall i, j | 0 <= i < j < |ArchiveEntries(ws, walk)| ::
              ArchiveEntries(ws, walk)[i].name != ArchiveEntries(ws, walk)[j].name
    ensures forall i | 0 <= i < |ArchiveEntries(ws, walk)| ::
              ArchiveEntries(ws, walk)[i].content == ws[ArchiveEntries(ws, walk)[i].name]
  {
    var dir := ws[[ArchiveName] := partial];
    assert forall q | q in dir :: q in walk;
    forall p
      ensures (exists i | 0 <= i < |ArchiveEntries(ws, walk)| :: ArchiveEntries(ws, walk)[i].name == p)
              <==> p in ws && Base(p) != ArchiveName
    {
      ArchiveListsWalked(ws, walk, p);
      if p in ws && Base(p) != ArchiveName {
        assert p in dir;
        assert p in walk;
      }
    }
    ArchiveNamesDistinct(ws, walk);
  }
}

=== FILE: cleanup.dfy ===
/**
 `remove_unnecessary_files`: deletes the root files whose names end in a
 build-byproduct extension, then the `.git` and `.vscode` directories.
 */
module Cleanup {
  import opened Text
  import opened Workspace

  /** The extensions of files the typesetting run leaves behind (and the bibliography source). */
  const DenyList: seq<string> := [".aux", ".log", ".out", ".blg", ".toc", ".lot", ".lof", ".pdf", ".bib"]

  /** The version-control and editor directories removed last. */
  const ToolDirs: seq<string> := [".git", ".vscode"]

  /** `any(file.endswith(ext) for ext in extensions_to_remove)`. */
  predicate IsByproduct(name: string) {
    exists ext | ext in DenyList :: EndsWith(name, ext)
  }

  /** A file inside `.git` or `.vscode`. */
  predicate UnderToolDir(p: Path) {
    |p| > 1 && p[0] in ToolDirs
  }

  /** The exceptions the cleanup can raise on an unusual workspace. */
  datatype CleanupError =
    | IsADirectory                   // `os.remove` on a root directory whose name ends in a listed extension
    | NotADirectory(name: string)    // `shutil.rmtree` on a root file named `.git` or `.vscode`

  datatype CleanupResult = Cleaned(files: Files) | Raised(error: CleanupError)

  /** Some root directory has a name ending in a listed extension: `os.remove` on it raises. */
  predicate ByproductDirectory(ws: Files) {
    exists p | p in ws :: |p| > 1 && IsByproduct(p[0])
  }

  /** A file that neither the deny-list loop nor the `.git`/`.vscode` removals delete. */
  predicate Survives(p: Path) {
    !(IsRoot(p) && IsByproduct(Base(p))) && !UnderToolDir(p)
  }

  /** The files left once both deletions have run. */
  function Survivors(ws: Files): Files {
    map p | p in ws && Survives(p) :: ws[p]
  }

  /** `remove_unnecessary_files`. */
  function RemoveUnnecessaryFiles(ws: Files): CleanupResult {
    if ByproductDirectory(ws) then Raised(IsADirectory)
    else if [".git"] in ws then Raised(NotADirectory(".git"))
    else if [".vscode"] in ws then Raised(NotADirectory(".vscode"))
    else Cleaned(Survivors(ws))
  }

  /**
   Unfolding helper: `RemoveUnnecessaryFiles` with its named stages
   (`ByproductDirectory`, `Survives`) spelled out as quantifiers, for the
   lemmas below to build on.
   */
  lemma CleanupEffect(ws: Files)
    ensures RemoveUnnecessaryFiles(ws).Raised? <==>
              || (exists p | p in ws :: |p| > 1 && IsByproduct(p[0]))
              || (exists name | name in ToolDirs :: [name] in ws)
    ensures RemoveUnnecessaryFiles(ws).Cleaned? ==>
              forall p :: p in RemoveUnnecessaryFiles(ws).files <==>
                          p in ws && !(IsRoot(p) && IsByproduct(Base(p))) && !UnderToolDir(p)
    ensures RemoveUnnecessaryFiles(ws).Cleaned? ==>
              forall p | p in RemoveUnnecessaryFiles(ws).files :: RemoveUnnecessaryFiles(ws).files[p] == ws[p]
  {
    assert [".git"] == [ToolDirs[0]] && [".vscode"] == [ToolDirs[1]];
  }

  /**
   The deny list read another way: every listed extension is four characters
   long, so a byproduct is a name whose last four characters form one of them.
   */
  predicate HasListedSuffix(name: string) {
    |name| >= 4 && name[|name| - 4..] in {".aux", ".log", ".out", ".blg", ".toc", ".lot", ".lof", ".pdf", ".bib"}
  }

  /** The `any(... endswith ...)` test agrees with the four-character suffix test. */
  lemma ByproductBySuffix(name: string)
    ensures IsByproduct(name) <==> HasListedSuffix(name)
  {
    if IsByproduct(name) {
      var ext :| ext in DenyList && EndsWith(name, ext);
      assert |ext| == 4;
    }
    if HasListedSuffix(name) {
      var ext := name[|name| - 4..];
      assert ext in DenyList;
      assert EndsWith(name, ext);
    }
  }

  /**
   The cleanup raises exactly when a root directory carries a listed suffix
   or a root file is named `.git` or `.vscode`.
   */
  lemma CleanupRaises(ws: Files)
    ensures RemoveUnnecessaryFiles(ws).Raised? <==>
              || (exists p | p in ws :: |p| > 1 && HasListedSuffix(p[0]))
              || [".git"] in ws || [".vscode"] in ws
  {
    forall p | p in ws && |p| > 1
      ensures IsByproduct(p[0]) <==> HasListedSuffix(p[0])
    {
      ByproductBySuffix(p[0]);
    }
  }

  /**
   When the cleanup does not raise, its result is a part of the workspace
   with unchanged contents, from which exactly the root files with a listed
   suffix and the files inside `.git` and `.vscode` are gone.
   */
  lemma CleanupKeeps(ws: Files)
    requires RemoveUnnecessaryFiles(ws).Cleaned?
    ensures var d := RemoveUnnecessaryFiles(ws).files;
            && (forall p | p in d :: p in ws && d[p] == ws[p])
            && (forall p | p in ws && IsRoot(p) :: p in d <==> !HasListedSuffix(p[0]))
            && (forall p | p in ws && |p| > 1 :: p in d <==> p[0] != ".git" && p[0] != ".vscode")
  {
    var d := RemoveUnnecessaryFiles(ws).files;
    CleanupEffect(ws);
    forall p | p in ws && IsRoot(p)
      ensures p in d <==> !HasListedSuffix(p[0])
    {
      ByproductBySuffix(p[0]);
    }
    forall p | p in ws && |p| > 1
      ensures p in d <==> p[0] != ".git" && p[0] != ".vscode"
    {
      assert UnderToolDir(p) <==> p[0] == ToolDirs[0] || p[0] == ToolDirs[1];
    }
  }

  /** Two suffixes of the same length of one name are equal. */
  lemma SameLengthSuffixes(name: string, a: string, b: string)
    requires EndsWith(name, a) && EndsWith(name, b) && |a| == |b|
    ensures a == b
  {
  }

  /** `.tex` sources and `.bbl` bibliographies are never treated as byproducts. */
  lemma SourcesAreKept(name: string)
    ensures EndsWith(name, ".tex") ==> !IsByproduct(name)
    ensures EndsWith(name, ".bbl") ==> !IsByproduct(name)
  {
    forall ext | ext in DenyList && EndsWith(name, ext)
      ensures !EndsWith(name, ".tex") && !EndsWith(name, ".bbl")
    {
      assert |ext| == 4;
      if EndsWith(name, ".tex") {
        SameLengthSuffixes(name, ext, ".tex");
      }
      if EndsWith(name, ".bbl") {
        SameLengthSuffixes(name, ext, ".bbl");
      }
    }
  }

  /** Unfolding helper: the definition of `IsByproduct`, one listed extension at a time. */
  lemma ListedAreByproducts(name: string, ext: string)
    requires ext in DenyList && EndsWith(name, ext)
    ensures IsByproduct(name)
  {
  }

  /** Cleaning a cleaned workspace changes nothing. */
  lemma CleanupIdempotent(ws: Files)
    requires RemoveUnnecessaryFiles(ws).Cleaned?
    ensures RemoveUnnecessaryFiles(RemoveUnnecessaryFiles(ws).files) == RemoveUnnecessaryFiles(ws)
  {
    var c := Survivors(ws);
    assert !ByproductDirectory(c) by {
      forall p | p in c && |p| > 1
        ensures !IsByproduct(p[0])
      {
        assert p in ws;
      }
    }
    assert [".git"] !in c && [".vscode"] !in c;
    assert Survivors(c) == c;
  }

  /** On a flat workspace without `.git`/`.vscode` files the cleanup succeeds and keeps every non-byproduct. */
  lemma CleanupOfFlatWorkspace(ws: Files)
    requires forall p | p in ws :: IsRoot(p)
    requires [".git"] !in ws && [".vscode"] !in ws
    ensures RemoveUnnecessaryFiles(ws).Cleaned?
    ensures forall p | p in ws ::
              p in RemoveUnnecessaryFiles(ws).files <==> !IsByproduct(Base(p))
  {
    CleanupEffect(ws);
  }

  /** Of `.aux`, `.pdf`, `.tex` and `.bib` files, only the `.tex` one is not a byproduct. */
  lemma ByproductExamples()
    ensures IsByproduct("paper.aux") && IsByproduct("paper.pdf") && IsByproduct("refs.bib")
    ensures !IsByproduct("paper.tex")
  {
    ListedAreByproducts("paper.aux", ".aux");
    ListedAreByproducts("paper.pdf", ".pdf");
    ListedAreByproducts("refs.bib", ".bib");
    assert EndsWith("paper.tex", ".tex");
    SourcesAreKept("paper.tex");
  }
}

=== FILE: compile.dfy ===
/**
 `compile_document` and `compile_document_full`: a fixed list of tool
 invocations run in order, each one's exit status checked, the first
 non-zero status ending the run. The tools themselves are not modelled: the
 exit status each command would return is supplied as input.
 */
module Compile {
  import opened Text

  /** One external command line: the program and its arguments. */
  datatype Command = Command(program: string, args: seq<string>)

  /** How a sequence of commands ended. */
  datatype Outcome = Completed | Failed(command: Command, code: int)

  /** The commands actually started, in order, and how the sequence ended. */
  datatype Run = Run(issued: seq<Command>, outcome: Outcome)

  /** Non-interactive typesetting of the main document, stopping at the first error. */
  function Pdflatex(main: string): Command {
    Command("pdflatex", ["-interaction=nonstopmode", "-halt-on-error", "-file-line-error", main])
  }

  /** `main_tex_file.replace('.tex', '')`: the argument handed to `bibtex`. */
  function BibtexArgument(main: string): string {
    ReplaceAll(main, ".tex", "")
  }

  /** Bibliography processing for the main document. */
  function Bibtex(main: string): Command {
    Command("bibtex", [BibtexArgument(main)])
  }

  /** The commands of `compile_document`. */
  function QuickCommands(main: string): seq<Command> {
    [Pdflatex(main)]
  }

  /** The commands of `compile_document_full`. */
  function FullCommands(main: string): seq<Command> {
    [Pdflatex(main), Bibtex(main), Pdflatex(main), Pdflatex(main)]
  }

  /** Index of the first non-zero exit status, or `|codes|` when all are zero. */
  function FirstNonZero(codes: seq<int>): (k: nat)
    ensures k <= |codes|
    ensures forall i | 0 <= i < k :: codes[i] == 0
    ensures k < |codes| ==> codes[k] != 0
    decreases |codes|
  {
    if |codes| == 0 then 0
    else if codes[0] != 0 then 0
    else 1 + FirstNonZero(codes[1..])
  }

  /**
   The loop shared by both compile functions: run each command; `codes[i]`
   is the exit status command `i` returns when it is run.
   */
  function Execute(cmds: seq<Command>, codes: seq<int>): (run: Run)
    requires |codes| == |cmds|
    ensures run.outcome.Completed? <==> forall i | 0 <= i < |codes| :: codes[i] == 0
    ensures run.outcome.Completed? ==> run.issued == cmds
    ensures run.outcome.Failed? ==>
              var k := FirstNonZero(codes);
              && k < |cmds|
              && run.issued == cmds[..k + 1]
              && run.outcome == Failed(cmds[k], codes[k])
    decreases |cmds|
  {
    if |cmds| == 0 then Run([], Completed)
    else if codes[0] != 0 then Run([cmds[0]], Failed(cmds[0], codes[0]))
    else
      var rest := Execute(cmds[1..], codes[1..]);
      assert forall i | 1 <= i < |codes| :: codes[i] == codes[1..][i - 1];
      assert rest.outcome.Failed? ==> [cmds[0]] + cmds[1..][..FirstNonZero(codes[1..]) + 1] == cmds[..FirstNonZero(codes) + 1];
      Run([cmds[0]] + rest.issued, rest.outcome)
  }

  /** `compile_document`. */
  function CompileDocument(main: string, codes: seq<int>): Run
    requires |codes| == 1
  {
    Execute(QuickCommands(main), codes)
  }

  /** `compile_document_full`. */
  function CompileDocumentFull(main: string, codes: seq<int>): Run
    requires |codes| == 4
  {
    Execute(FullCommands(main), codes)
  }

  /** A successful full compilation issues typeset, bibliography, typeset, typeset, in that order. */
  lemma FullRunOrder(main: string, codes: seq<int>)
    requires |codes| == 4
    requires forall i | 0 <= i < 4 :: codes[i] == 0
    ensures CompileDocumentFull(main, codes) == Run(FullCommands(main), Completed)
    ensures |CompileDocumentFull(main, codes).issued| == 4
    ensures CompileDocumentFull(main, codes).issued[0].program == "pdflatex"
    ensures CompileDocumentFull(main, codes).issued[1].program == "bibtex"
    ensures CompileDocumentFull(main, codes).issued[2].program == "pdflatex"
    ensures CompileDocumentFull(main, codes).issued[3].program == "pdflatex"
  {
  }

  /** A failing bibliography step stops the run: the two later typesetting passes never start. */
  lemma BibtexFailureStops(main: string, codes: seq<int>)
    requires |codes| == 4 && codes[0] == 0 && codes[1] != 0
    ensures CompileDocumentFull(main, codes) == Run([Pdflatex(main), Bibtex(main)], Failed(Bibtex(main), codes[1]))
  {
    assert FirstNonZero(codes) == 1;
    assert FullCommands(main)[..2] == [Pdflatex(main), Bibtex(main)];
  }

  /** The quick mode runs exactly one typesetting pass and succeeds exactly when it returns 0. */
  lemma QuickRun(main: string, code: int)
    ensures CompileDocument(main, [code]) ==
            if code == 0 then Run([Pdflatex(main)], Completed) else Run([Pdflatex(main)], Failed(Pdflatex(main), code))
  {
  }

  /** `bibtex` receives the main file's name with `.tex` removed: `main.tex` gives `main`. */
  lemma BibtexArgumentOfMain()
    ensures BibtexArgument("main.tex") == "main"
  {
    var s := "main.tex";
    assert s[..4] != ".tex" by {
      assert s[..4][0] != ".tex"[0];
    }
    assert s[1..][..4] != ".tex" by {
      assert s[1..][..4][0] != ".tex"[0];
    }
    assert s[2..][..4] != ".tex" by {
      assert s[2..][..4][0] != ".tex"[0];
    }
    assert s[3..][..4] != ".tex" by {
      assert s[3..][..4][0] != ".tex"[0];
    }
    assert s[4..][..4] == ".tex";
    assert s[1..][1..] == s[2..];
    assert s[2..][1..] == s[3..];
    assert s[3..][1..] == s[4..];
    assert s[4..][4..] == "";
  }

  /** Every occurrence of `.tex` is removed, not only a trailing one. */
  lemma BibtexArgumentInner()
    ensures BibtexArgument("a.tex.tex") == "a"
  {
    var s := "a.tex.tex";
    assert s[..4][0] != ".tex"[0];
    assert s[1..][..4] == ".tex";
    assert s[1..][4..] == ".tex";
    assert ".tex"[..4] == ".tex";
    assert ".tex"[4..] == "";
  }
}

=== FILE: flatten.dfy ===
/**
 `flatten_directory` and `remove_subdirectories`: every file is moved to the
 workspace root under its base name, in walk order, so that among files
 sharing a base name the last one walked wins; then every sub-directory is
 deleted.
 */
module Flatten {
  import opened Workspace

  /** `shutil.move(p, root/Base(p))`: the file leaves `p` and replaces whatever sat at its root name. */
  function Move(m: Files, p: Path): (r: Files)
    ensures p in m ==> [Base(p)] in r && r[[Base(p)]] == m[p]
    ensures p in m ==> forall q | q in m && q != p && q != [Base(p)] :: q in r && r[q] == m[q]
    ensures p in m ==> forall q | q in r :: q == [Base(p)] || (q in m && q != p)
    ensures p !in m ==> r == m
  {
    if p in m then (m - {p})[[Base(p)] := m[p]] else m
  }

  /** `flatten_directory`: the moves, in walk order. */
  function FlattenDirectory(ws: Files, walk: seq<Path>): Files
    decreases |walk|
  {
    if |walk| == 0 then ws else Move(FlattenDirectory(ws, walk[..|walk| - 1]), walk[|walk| - 1])
  }

  /** `remove_subdirectories`: every file below a sub-directory of the root is deleted with it. */
  function RemoveSubdirectories(ws: Files): (r: Files)
    ensures forall p | p in r :: IsRoot(p)
    ensures forall p | p in ws && IsRoot(p) :: p in r && r[p] == ws[p]
    ensures forall p | p in r :: p in ws
  {
    map p | p in ws && IsRoot(p) :: ws[p]
  }

  /**
   Index of the last path in `walk` whose base name is `b`, or -1 when there
   is none: the file whose contents end up at `[b]` after flattening.
   */
  function LastWriter(walk: seq<Path>, b: string): (k: int)
    ensures -1 <= k < |walk|
    ensures k >= 0 ==> Base(walk[k]) == b
    ensures forall j | k < j < |walk| :: Base(walk[j]) != b
    decreases |walk|
  {
    if |walk| == 0 then -1
    else if Base(walk[|walk| - 1]) == b then |walk| - 1
    else LastWriter(walk[..|walk| - 1], b)
  }

  /** A prefix of a valid walk: its paths are files of `ws`, distinct, root files first. */
  predicate PartialWalk(ws: Files, walk: seq<Path>) {
    && (forall i | 0 <= i < |walk| :: walk[i] in ws)
    && (forall i, j | 0 <= i < j < |walk| :: walk[i] != walk[j])
    && (forall i, j | 0 <= i < j < |walk| && IsRoot(walk[j]) :: IsRoot(walk[i]))
  }

  /** Files below the root that the walk has not reached yet are still in place, untouched. */
  ghost predicate NestedUpTo(ws: Files, walk: seq<Path>, m: Files) {
    && (forall p | |p| > 1 :: p in m <==> p in ws && p !in walk)
    && (forall p | p in m && |p| > 1 :: m[p] == ws[p])
    && (forall p | p in m :: |p| > 0)
  }

  /** A root name is present when it was there to begin with or some walked file carries it as base name. */
  ghost predicate RootKeysUpTo(ws: Files, walk: seq<Path>, m: Files) {
    forall p | IsRoot(p) :: p in m <==> p in ws || LastWriter(walk, Base(p)) >= 0
  }

  /** The contents expected at root path `p` after the moves of `walk`: those of its last writer, if any. */
  function Expected(ws: Files, walk: seq<Path>, p: Path): string
    requires PartialWalk(ws, walk)
    requires p in ws || LastWriter(walk, Base(p)) >= 0
  {
    var k := LastWriter(walk, Base(p));
    if k >= 0 then ws[walk[k]] else ws[p]
  }

  /** Every present root file holds the contents of its last writer. */
  ghost predicate RootContentsUpTo(ws: Files, walk: seq<Path>, m: Files)
    requires PartialWalk(ws, walk)
    requires RootKeysUpTo(ws, walk, m)
  {
    forall p | IsRoot(p) && p in m :: m[p] == Expected(ws, walk, p)
  }

  /** What the workspace looks like after the moves of a walk prefix. */
  ghost predicate FlattenedUpTo(ws: Files, walk: seq<Path>, m: Files)
    requires PartialWalk(ws, walk)
  {
    && NestedUpTo(ws, walk, m)
    && RootKeysUpTo(ws, walk, m)
    && RootContentsUpTo(ws, walk, m)
  }

  /** Two root paths with the same base name are the same path. */
  lemma RootByBase(p: Path, q: Path)
    requires IsRoot(p) && IsRoot(q) && Base(p) == Base(q)
    ensures p == q
  {
  }

  /** Dropping the last path keeps a walk prefix a walk prefix. */
  lemma PartialWalkInit(ws: Files, walk: seq<Path>)
    requires |walk| > 0 && PartialWalk(ws, walk)
    ensures PartialWalk(ws, walk[..|walk| - 1])
  {
  }

  /** The file moved by the next step is still in place with its original contents. */
  lemma NextSourceInPlace(ws: Files, walk: seq<Path>, m0: Files)
    requires WellFormed(ws)
    requires |walk| > 0 && PartialWalk(ws, walk)
    requires PartialWalk(ws, walk[..|walk| - 1])
    requires FlattenedUpTo(ws, walk[..|walk| - 1], m0)
    ensures walk[|walk| - 1] in m0 && m0[walk[|walk| - 1]] == ws[walk[|walk| - 1]]
  {
    var init := walk[..|walk| - 1];
    var q := walk[|walk| - 1];
    var b := Base(q);
    assert q in ws;
    assert forall j | 0 <= j < |init| :: init[j] == walk[j];
    assert q !in init;
    if IsRoot(q) {
      // Every earlier path is a root file other than q, so none shares its base name.
      forall j | 0 <= j < |init|
        ensures Base(init[j]) != b
      {
        assert IsRoot(walk[j]);
        if Base(init[j]) == b {
          RootByBase(init[j], q);
        }
      }
      assert LastWriter(init, b) == -1;
      assert RootContentsUpTo(ws, init, m0);
    } else {
      assert |q| > 1;
      assert NestedUpTo(ws, init, m0);
    }
  }

  /** The last-writer index of any other base name is not affected by one more walked path. */
  lemma LastWriterOther(walk: seq<Path>, b: string)
    requires |walk| > 0 && Base(walk[|walk| - 1]) != b
    ensures LastWriter(walk, b) == LastWriter(walk[..|walk| - 1], b)
  {
  }

  /** One more move keeps the untouched nested files as described. */
  lemma StepNested(ws: Files, walk: seq<Path>, m0: Files)
    requires |walk| > 0 && PartialWalk(ws, walk)
    requires NestedUpTo(ws, walk[..|walk| - 1], m0)
    requires walk[|walk| - 1] in m0
    ensures NestedUpTo(ws, walk, Move(m0, walk[|walk| - 1]))
  {
    var init := walk[..|walk| - 1];
    var q := walk[|walk| - 1];
    assert walk == init + [q];
    assert |q| > 0;
  }

  /** One more move keeps the root names as described. */
  lemma StepRootKeys(ws: Files, walk: seq<Path>, m0: Files)
    requires |walk| > 0 && PartialWalk(ws, walk)
    requires RootKeysUpTo(ws, walk[..|walk| - 1], m0)
    requires walk[|walk| - 1] in m0
    ensures RootKeysUpTo(ws, walk, Move(m0, walk[|walk| - 1]))
  {
    var init := walk[..|walk| - 1];
    var q := walk[|walk| - 1];
    var b := Base(q);
    var m := Move(m0, q);
    forall p | IsRoot(p)
      ensures p in m <==> p in ws || LastWriter(walk, Base(p)) >= 0
    {
      if Base(p) == b {
        assert p == [b];
      } else {
        assert p != [b];
        LastWriterOther(walk, Base(p));
      }
    }
  }

  /** One more move keeps every root file holding its last writer's contents. */
  lemma StepRootContents(ws: Files, walk: seq<Path>, m0: Files)
    requires |walk| > 0 && PartialWalk(ws, walk)
    requires PartialWalk(ws, walk[..|walk| - 1])
    requires RootKeysUpTo(ws, walk[..|walk| - 1], m0)
    requires RootContentsUpTo(ws, walk[..|walk| - 1], m0)
    requires walk[|walk| - 1] in m0 && m0[walk[|walk| - 1]] == ws[walk[|walk| - 1]]
    requires RootKeysUpTo(ws, walk, Move(m0, walk[|walk| - 1]))
    ensures RootContentsUpTo(ws, walk, Move(m0, walk[|walk| - 1]))
  {
    var init := walk[..|walk| - 1];
    var q := walk[|walk| - 1];
    var b := Base(q);
    var m := Move(m0, q);
    forall p | IsRoot(p) && p in m
      ensures m[p] == Expected(ws, walk, p)
    {
      if Base(p) == b {
        assert p == [b];
        assert LastWriter(walk, b) == |walk| - 1;
      } else {
        assert p != [b];
        LastWriterOther(walk, Base(p));
        var k := LastWriter(init, Base(p));
        if k >= 0 {
          assert walk[k] == init[k];
        }
        assert p in m0 && p != q;
      }
    }
  }

  /** The state after each prefix of the walk, by induction on the prefix. */
  lemma {:induction false} FlattenInvariant(ws: Files, walk: seq<Path>)
    requires WellFormed(ws)
    requires PartialWalk(ws, walk)
    ensures FlattenedUpTo(ws, walk, FlattenDirectory(ws, walk))
    decreases |walk|
  {
    if |walk| > 0 {
      var init := walk[..|walk| - 1];
      var q := walk[|walk| - 1];
      var m0 := FlattenDirectory(ws, init);
      PartialWalkInit(ws, walk);
      FlattenInvariant(ws, init);
      NextSourceInPlace(ws, walk, m0);
      assert FlattenDirectory(ws, walk) == Move(m0, q);
      StepNested(ws, walk, m0);
      StepRootKeys(ws, walk, m0);
      StepRootContents(ws, walk, m0);
    }
  }

  /** A base name has a last writer exactly when some walked file carries it. */
  lemma LastWriterExists(walk: seq<Path>, b: string)
    ensures LastWriter(walk, b) >= 0 <==> exists i | 0 <= i < |walk| :: Base(walk[i]) == b
  {
  }

  /**
   No file's base name is also the name of a directory at the root. When a
   nested file's base name names a root directory, `shutil.move` puts the
   file inside that directory (where `remove_subdirectories` later deletes
   it) or raises because the destination exists, depending on the order the
   directories are visited; `Move` does neither. On a workspace without such
   a clash the moves of `flatten_directory` are the ones `Move` models.
   */
  predicate NoDirectoryClash(ws: Files) {
    forall p, q | p in ws && q in ws && |q| > 1 :: Base(p) != q[0]
  }

  /**
   `flatten_directory` followed by `remove_subdirectories` leaves only root
   files; a root name survives exactly when some file had it as base name,
   and it holds the contents of the last such file in walk order.
   */
  lemma FlattenThenRemove(ws: Files, walk: seq<Path>)
    requires WellFormed(ws) && NoDirectoryClash(ws)
    requires ValidWalk(ws, walk)
    ensures forall p | p in FlattenDirectory(ws, walk) :: IsRoot(p)
    ensures RemoveSubdirectories(FlattenDirectory(ws, walk)) == FlattenDirectory(ws, walk)
    ensures forall p | IsRoot(p) ::
              p in FlattenDirectory(ws, walk) <==> exists q | q in ws :: Base(q) == Base(p)
    ensures forall p | p in FlattenDirectory(ws, walk) ::
              && 0 <= LastWriter(walk, Base(p))
              && FlattenDirectory(ws, walk)[p] == ws[walk[LastWriter(walk, Base(p))]]
  {
    FlattenLeavesRoot(ws, walk);
    FlattenRootKeys(ws, walk);
    FlattenRootContents(ws, walk);
  }

  /** Helper: after the flattening loop no nested path is left. */
  lemma FlattenLeavesRoot(ws: Files, walk: seq<Path>)
    requires WellFormed(ws) && NoDirectoryClash(ws)
    requires ValidWalk(ws, walk)
    ensures forall p | p in FlattenDirectory(ws, walk) :: IsRoot(p)
  {
    var m := FlattenDirectory(ws, walk);
    FlattenInvariant(ws, walk);
    assert NestedUpTo(ws, walk, m);
    forall p | |p| > 1
      ensures p !in m
    {
      assert p in ws ==> p in walk;
    }
  }

  /** Helper: the root names after flattening are the base names of the paper's files. */
  lemma FlattenRootKeys(ws: Files, walk: seq<Path>)
    requires WellFormed(ws) && NoDirectoryClash(ws)
    requires ValidWalk(ws, walk)
    ensures forall p | IsRoot(p) ::
              p in FlattenDirectory(ws, walk) <==> exists q | q in ws :: Base(q) == Base(p)
  {
    var m := FlattenDirectory(ws, walk);
    FlattenInvariant(ws, walk);
    assert RootKeysUpTo(ws, walk, m);
    forall p | IsRoot(p)
      ensures p in m <==> exists q | q in ws :: Base(q) == Base(p)
    {
      LastWriterExists(walk, Base(p));
      if p in m {
        if p in ws {
          assert Base(p) == Base(p);
        } else {
          var i :| 0 <= i < |walk| && Base(walk[i]) == Base(p);
          assert walk[i] in ws;
        }
      }
      if exists q | q in ws :: Base(q) == Base(p) {
        var q :| q in ws && Base(q) == Base(p);
        assert q in walk;
        var i :| 0 <= i < |walk| && walk[i] == q;
        assert Base(walk[i]) == Base(p);
      }
    }
  }

  /** Helper: each flattened file holds the contents of the last walked file with its base name. */
  lemma FlattenRootContents(ws: Files, walk: seq<Path>)
    requires WellFormed(ws) && NoDirectoryClash(ws)
    requires ValidWalk(ws, walk)
    ensures forall p | p in FlattenDirectory(ws, walk) ::
              && 0 <= LastWriter(walk, Base(p))
              && FlattenDirectory(ws, walk)[p] == ws[walk[LastWriter(walk, Base(p))]]
  {
    var m := FlattenDirectory(ws, walk);
    FlattenInvariant(ws, walk);
    assert RootKeysUpTo(ws, walk, m);
    assert RootContentsUpTo(ws, walk, m);
    FlattenLeavesRoot(ws, walk);
    forall p | p in m && p in ws
      ensures 0 <= LastWriter(walk, Base(p))
    {
      assert p in walk;
      var i :| 0 <= i < |walk| && walk[i] == p;
      LastWriterExists(walk, Base(p));
    }
  }

  /** A nested file overwrites the root file with the same base name, because the root is walked first. */
  lemma NestedOverwritesRoot(rootText: string, nestedText: string)
    ensures var ws := map[["a.tex"] := rootText, ["sub", "a.tex"] := nestedText];
            FlattenDirectory(ws, [["a.tex"], ["sub", "a.tex"]]) == map[["a.tex"] := nestedText]
  {
    var ws := map[["a.tex"] := rootText, ["sub", "a.tex"] := nestedText];
    var walk: seq<Path> := [["a.tex"], ["sub", "a.tex"]];
    assert walk[..1] == [["a.tex"]];
    assert walk[..1][..0] == [];
    assert ["a.tex"] != ["sub", "a.tex"];
    assert FlattenDirectory(ws, walk[..1]) == ws;
    var m := Move(ws, ["sub", "a.tex"]);
    assert m.Keys == {["a.tex"]};
  }
}

=== FILE: pipeline.dfy ===
/**
 `main`: clean, copy, flatten, rewrite, strip, inject, compile (full mode),
 wait for the operator, clean up, archive. A failing compile command ends the
 run with exit status 1 before cleanup and archiving.
 */
module Pipeline {
  import opened Text
  import opened Workspace
  import opened Flatten
  import opened TexPasses
  import opened Compile
  import opened Cleanup
  import opened Archive

  /** `MAIN_TEX_FILE`. */
  const MainTexFile: string := "main.tex"

  /** The status `exit(1)` ends the process with when a compile command fails. */
  const FailureStatus: int := 1

  /** How a run of the script ends. */
  datatype Result =
    | Aborted(run: Run, workspace: Files, status: int)   // a compile command failed; nothing was cleaned or archived
    | CleanupRaised(error: CleanupError)                   // the cleanup raised an uncaught exception
    | Done(workspace: Files, archive: seq<Entry>)          // the cleaned workspace and the archive's entries

  /** The steps up to `remove_subdirectories`: a fresh copy of the paper, flattened. */
  function Flattened(paper: Files, previous: Files, copyWalk: seq<Path>, flattenWalk: seq<Path>): Files {
    var copied := CreateDeepCopy(paper, CleanTmpDirectory(previous), copyWalk);
    RemoveSubdirectories(FlattenDirectory(copied, flattenWalk))
  }

  /** The three text passes over the flat workspace. */
  function TextPasses(flat: Files): Files {
    AddArxivCommand(RemoveCommentsFromTexFiles(UpdateTexFiles(flat)), MainTexFile)
  }

  /** The steps before compilation: from the paper's files to the flat, rewritten workspace. */
  function Prepare(paper: Files, previous: Files, copyWalk: seq<Path>, flattenWalk: seq<Path>): Files {
    TextPasses(Flattened(paper, previous, copyWalk, flattenWalk))
  }

  /**
   `main`. The exit statuses of the four compile commands, the files the
   toolchain writes when it succeeds, and the walk orders are inputs; the
   operator's confirmation has no effect on the files.
   */
  function Main(paper: Files, previous: Files, copyWalk: seq<Path>, flattenWalk: seq<Path>,
                codes: seq<int>, artifacts: Files, zipWalk: seq<Path>): Result
    requires |codes| == 4
  {
    var prepared := Prepare(paper, previous, copyWalk, flattenWalk);
    var run := CompileDocumentFull(MainTexFile, codes);
    if run.outcome.Failed? then Aborted(run, prepared, FailureStatus)
    else Finish(prepared + artifacts, zipWalk)
  }

  /** The steps after the operator's confirmation: cleanup, then the archive. */
  function Finish(compiled: Files, zipWalk: seq<Path>): Result {
    match RemoveUnnecessaryFiles(compiled)
    case Raised(e) => CleanupRaised(e)
    case Cleaned(files) => Done(files, ArchiveEntries(files, zipWalk))
  }

  /**
   On a flat workspace without `.git`/`.vscode` files that holds the main
   document, the final steps archive: the cleaned workspace keeps exactly the
   files that are not byproducts, the main document among them, each with its
   contents unchanged. Over a valid walk of the directory the archive is
   written into (the cleaned files plus `ax.zip` itself, whatever it holds so
   far, as `partial`), the archive lists exactly the cleaned files other than
   `ax.zip`, each once, with their contents.
   */
  lemma FinishArchives(compiled: Files, zipWalk: seq<Path>, partial: string)
    requires forall p | p in compiled :: IsRoot(p)
    requires [".git"] !in compiled && [".vscode"] !in compiled
    requires [MainTexFile] in compiled
    ensures Finish(compiled, zipWalk).Done?
    ensures var d := Finish(compiled, zipWalk).workspace;
            && (forall p | p in compiled :: p in d <==> !IsByproduct(Base(p)))
            && (forall p | p in d :: p in compiled && IsRoot(p) && d[p] == compiled[p])
            && [MainTexFile] in d
    ensures var r := Finish(compiled, zipWalk);
            ValidWalk(r.workspace[[ArchiveName] := partial], zipWalk) ==>
              && (forall p :: (exists i | 0 <= i < |r.archive| :: r.archive[i].name == p)
                              <==> p in r.workspace && Base(p) != ArchiveName)
              && (forall i, j | 0 <= i < j < |r.archive| :: r.archive[i].name != r.archive[j].name)
              && (forall i | 0 <= i < |r.archive| :: r.archive[i].name in r.workspace && r.archive[i].content == r.workspace[r.archive[i].name])
  {
    CleanupOfFlatWorkspace(compiled);
    CleanupEffect(compiled);
    assert !IsByproduct(MainTexFile) by {
      assert EndsWith(MainTexFile, ".tex");
      SourcesAreKept(MainTexFile);
    }
    var d := RemoveUnnecessaryFiles(compiled).files;
    assert Base([MainTexFile]) == MainTexFile;
    if ValidWalk(d[[ArchiveName] := partial], zipWalk) {
      ArchiveListsDirectory(d, zipWalk, partial);
    }
  }

  /**
   The run is aborted exactly when some compile command returns a non-zero
   status; it then exits with status 1 after issuing the commands up to the
   failing one, and neither cleanup nor archiving happens.
   */
  lemma MainAbortsIffCompileFails(paper: Files, previous: Files, copyWalk: seq<Path>, flattenWalk: seq<Path>,
                                  codes: seq<int>, artifacts: Files, zipWalk: seq<Path>)
    requires |codes| == 4
    ensures Main(paper, previous, copyWalk, flattenWalk, codes, artifacts, zipWalk).Aborted? <==>
            exists i | 0 <= i < 4 :: codes[i] != 0
    ensures var r := Main(paper, previous, copyWalk, flattenWalk, codes, artifacts, zipWalk);
            r.Aborted? ==>
              && r.status == FailureStatus
              && r.run.issued == FullCommands(MainTexFile)[..FirstNonZero(codes) + 1]
              && r.workspace == Prepare(paper, previous, copyWalk, flattenWalk)
  {
  }

  /**
   The text the main document holds before the directive: its last writer's
   contents, rewritten and stripped, or nothing when the paper has no
   `main.tex` (append mode then creates the file).
   */
  function MainBody(paper: Files, flattenWalk: seq<Path>): string
    requires forall i | 0 <= i < |flattenWalk| :: flattenWalk[i] in paper
  {
    var k := LastWriter(flattenWalk, MainTexFile);
    if k >= 0 then StripCommentLines(RewriteFigurePaths(paper[flattenWalk[k]])) else ""
  }

  /** Copying into the cleaned directory and flattening give the paper's own files, flattened. */
  lemma FlattenedPaper(paper: Files, previous: Files, copyWalk: seq<Path>, flattenWalk: seq<Path>)
    requires WellFormed(paper) && NoDirectoryClash(paper)
    requires ValidWalk(paper, copyWalk) && ValidWalk(paper, flattenWalk)
    ensures Flattened(paper, previous, copyWalk, flattenWalk) == FlattenDirectory(paper, flattenWalk)
  {
    CleanThenCopyIsExact(paper, previous, copyWalk);
    FlattenThenRemove(paper, flattenWalk);
  }

  /**
   After the text passes the main document is its old contents, rewritten
   and stripped (nothing when it was missing), followed by the directive.
   */
  lemma TextPassesMain(flat: Files)
    ensures var before := if [MainTexFile] in flat then StripCommentLines(RewriteFigurePaths(flat[[MainTexFile]])) else "";
            [MainTexFile] in TextPasses(flat) && TextPasses(flat)[[MainTexFile]] == before + ArxivSuffix
  {
    var stripped := RemoveCommentsFromTexFiles(UpdateTexFiles(flat));
    assert IsTexFile([MainTexFile]) by {
      assert Base([MainTexFile]) == MainTexFile;
      assert EndsWith(MainTexFile, ".tex");
    }
    if [MainTexFile] in flat {
      assert stripped[[MainTexFile]] == StripCommentLines(RewriteFigurePaths(flat[[MainTexFile]]));
    }
    AppendedDirective(stripped, MainTexFile);
  }

  /** The text passes add the main document and otherwise rewrite and strip the `.tex` files, leaving the rest alone. */
  lemma TextPassesOthers(flat: Files)
    ensures TextPasses(flat).Keys == flat.Keys + {[MainTexFile]}
    ensures forall p | p in flat && p != [MainTexFile] ::
              TextPasses(flat)[p] == if IsTexFile(p) then StripCommentLines(RewriteFigurePaths(flat[p])) else flat[p]
  {
    var stripped := RemoveCommentsFromTexFiles(UpdateTexFiles(flat));
    forall p | p in flat && p != [MainTexFile]
      ensures TextPasses(flat)[p] == if IsTexFile(p) then StripCommentLines(RewriteFigurePaths(flat[p])) else flat[p]
    {
      assert p in stripped && TextPasses(flat)[p] == stripped[p];
    }
  }

  /**
   The prepared main document is its last writer's contents, rewritten and
   stripped (nothing when the paper has no `main.tex`), followed by the
   directive.
   */
  lemma PreparedMain(paper: Files, previous: Files, copyWalk: seq<Path>, flattenWalk: seq<Path>)
    requires WellFormed(paper) && NoDirectoryClash(paper)
    requires ValidWalk(paper, copyWalk) && ValidWalk(paper, flattenWalk)
    ensures var w := Prepare(paper, previous, copyWalk, flattenWalk);
            [MainTexFile] in w && w[[MainTexFile]] == MainBody(paper, flattenWalk) + ArxivSuffix
  {
    FlattenedPaper(paper, previous, copyWalk, flattenWalk);
    var flat := FlattenDirectory(paper, flattenWalk);
    TextPassesMain(flat);
    FlattenThenRemove(paper, flattenWalk);
    assert Base([MainTexFile]) == MainTexFile;
    LastWriterExists(flattenWalk, MainTexFile);
    if [MainTexFile] !in flat {
      assert forall i | 0 <= i < |flattenWalk| :: flattenWalk[i] in paper;
      assert LastWriter(flattenWalk, MainTexFile) < 0;
    }
  }

  /**
   The prepared workspace is flat; it holds one file per base name of the
   paper plus the main document; the main document is its last writer's
   rewritten, stripped contents followed by the directive; every other file
   holds its last writer's contents, rewritten and stripped when it is a
   `.tex` file.
   */
  lemma PreparedShape(paper: Files, previous: Files, copyWalk: seq<Path>, flattenWalk: seq<Path>)
    requires WellFormed(paper) && NoDirectoryClash(paper)
    requires ValidWalk(paper, copyWalk) && ValidWalk(paper, flattenWalk)
    ensures var w := Prepare(paper, previous, copyWalk, flattenWalk);
            && (forall p | p in w :: IsRoot(p))
            && (forall p | IsRoot(p) :: p in w <==> p == [MainTexFile] || exists q | q in paper :: Base(q) == Base(p))
            && [MainTexFile] in w && w[[MainTexFile]] == MainBody(paper, flattenWalk) + ArxivSuffix
            && (forall p | p in w && p != [MainTexFile] ::
                  && 0 <= LastWriter(flattenWalk, Base(p))
                  && var source := paper[flattenWalk[LastWriter(flattenWalk, Base(p))]];
                     w[p] == if IsTexFile(p) then StripCommentLines(RewriteFigurePaths(source)) else source)
  {
    var flat := FlattenDirectory(paper, flattenWalk);
    var w := Prepare(paper, previous, copyWalk, flattenWalk);
    FlattenedPaper(paper, previous, copyWalk, flattenWalk);
    assert w == TextPasses(flat);
    FlattenThenRemove(paper, flattenWalk);
    TextPassesOthers(flat);
    PreparedMain(paper, previous, copyWalk, flattenWalk);
    assert forall p | p in w :: p in flat || p == [MainTexFile];
    forall p | p in w && p != [MainTexFile]
      ensures 0 <= LastWriter(flattenWalk, Base(p))
      ensures var source := paper[flattenWalk[LastWriter(flattenWalk, Base(p))]];
              w[p] == if IsTexFile(p) then StripCommentLines(RewriteFigurePaths(source)) else source
    {
      assert p in flat;
    }
  }

  /** When every compile command succeeds, `main` goes on to clean up and archive the prepared and compiled files. */
  lemma MainIsFinish(paper: Files, previous: Files, copyWalk: seq<Path>, flattenWalk: seq<Path>,
                     codes: seq<int>, artifacts: Files, zipWalk: seq<Path>)
    requires |codes| == 4 && forall i | 0 <= i < 4 :: codes[i] == 0
    ensures Main(paper, previous, copyWalk, flattenWalk, codes, artifacts, zipWalk)
            == Finish(Prepare(paper, previous, copyWalk, flattenWalk) + artifacts, zipWalk)
  {
  }

  /**
   The prepared workspace is flat, holds the main document, and holds no
   file named `.git` or `.vscode` when no paper file has such a base name.
   */
  lemma PreparedFlat(paper: Files, previous: Files, copyWalk: seq<Path>, flattenWalk: seq<Path>)
    requires WellFormed(paper) && NoDirectoryClash(paper)
    requires ValidWalk(paper, copyWalk) && ValidWalk(paper, flattenWalk)
    requires forall q | q in paper :: Base(q) != ".git" && Base(q) != ".vscode"
    ensures var w := Prepare(paper, previous, copyWalk, flattenWalk);
            && (forall p | p in w :: IsRoot(p))
            && [".git"] !in w && [".vscode"] !in w
            && [MainTexFile] in w
  {
    PreparedShape(paper, previous, copyWalk, flattenWalk);
    assert Base([".git"]) == ".git" && Base([".vscode"]) == ".vscode";
    assert [".git"] != [MainTexFile] && [".vscode"] != [MainTexFile];
  }

  /**
   The final steps over a flat prepared workspace and the toolchain's root
   files: the facts of `FinishArchives` for their union, with the main
   document's contents those of the prepared one.
   */
  lemma FinishCompiled(prepared: Files, artifacts: Files, zipWalk: seq<Path>, partial: string)
    requires forall p | p in prepared :: IsRoot(p)
    requires [".git"] !in prepared && [".vscode"] !in prepared && [MainTexFile] in prepared
    requires forall p | p in artifacts :: IsRoot(p) && p != [MainTexFile]
    requires [".git"] !in artifacts && [".vscode"] !in artifacts
    ensures Finish(prepared + artifacts, zipWalk).Done?
    ensures var d := Finish(prepared + artifacts, zipWalk).workspace;
            && (forall p | p in prepared + artifacts :: p in d <==> !IsByproduct(Base(p)))
            && (forall p | p in d :: p in prepared + artifacts && IsRoot(p) && d[p] == (prepared + artifacts)[p])
            && [MainTexFile] in d && d[[MainTexFile]] == prepared[[MainTexFile]]
    ensures var r := Finish(prepared + artifacts, zipWalk);
            ValidWalk(r.workspace[[ArchiveName] := partial], zipWalk) ==>
              && (forall p :: (exists i | 0 <= i < |r.archive| :: r.archive[i].name == p)
                              <==> p in r.workspace && Base(p) != ArchiveName)
              && (forall i, j | 0 <= i < j < |r.archive| :: r.archive[i].name != r.archive[j].name)
              && (forall i | 0 <= i < |r.archive| :: r.archive[i].name in r.workspace && r.archive[i].content == r.workspace[r.archive[i].name])
  {
    var compiled := prepared + artifacts;
    assert compiled[[MainTexFile]] == prepared[[MainTexFile]];
    FinishArchives(compiled, zipWalk, partial);
  }

  /**
   When every compile command succeeds and the workspace holds no `.git` or
   `.vscode` file, the run archives. The cleaned workspace keeps exactly the
   prepared and compiled files that are not byproducts, each with its
   contents, among them the main document with its directive.
   */
  lemma MainSucceeds(paper: Files, previous: Files, copyWalk: seq<Path>, flattenWalk: seq<Path>,
                     codes: seq<int>, artifacts: Files, zipWalk: seq<Path>)
    requires WellFormed(paper) && NoDirectoryClash(paper)
    requires ValidWalk(paper, copyWalk) && ValidWalk(paper, flattenWalk)
    requires |codes| == 4 && forall i | 0 <= i < 4 :: codes[i] == 0
    requires forall p | p in artifacts :: IsRoot(p) && p != [MainTexFile]
    requires forall q | q in paper :: Base(q) != ".git" && Base(q) != ".vscode"
    requires [".git"] !in artifacts && [".vscode"] !in artifacts
    ensures Main(paper, previous, copyWalk, flattenWalk, codes, artifacts, zipWalk).Done?
    ensures var compiled := Prepare(paper, previous, copyWalk, flattenWalk) + artifacts;
            var d := Main(paper, previous, copyWalk, flattenWalk, codes, artifacts, zipWalk).workspace;
            && (forall p | p in compiled :: p in d <==> !IsByproduct(Base(p)))
            && (forall p | p in d :: p in compiled && IsRoot(p) && d[p] == compiled[p])
            && [MainTexFile] in d && d[[MainTexFile]] == MainBody(paper, flattenWalk) + ArxivSuffix
  {
    var prepared := Prepare(paper, previous, copyWalk, flattenWalk);
    MainIsFinish(paper, previous, copyWalk, flattenWalk, codes, artifacts, zipWalk);
    PreparedFlat(paper, previous, copyWalk, flattenWalk);
    PreparedMain(paper, previous, copyWalk, flattenWalk);
    FinishCompiled(prepared, artifacts, zipWalk, "");
  }

  /**
   In the same situation, for any valid walk of the directory that also
   holds the archive being written (`partial`), the archive lists exactly
   the cleaned files other than `ax.zip`, each once, with their contents.
   */
  lemma MainArchives(paper: Files, previous: Files, copyWalk: seq<Path>, flattenWalk: seq<Path>,
                     codes: seq<int>, artifacts: Files, zipWalk: seq<Path>, partial: string)
    requires WellFormed(paper) && NoDirectoryClash(paper)
    requires ValidWalk(paper, copyWalk) && ValidWalk(paper, flattenWalk)
    requires |codes| == 4 && forall i | 0 <= i < 4 :: codes[i] == 0
    requires forall p | p in artifacts :: IsRoot(p) && p != [MainTexFile]
    requires forall q | q in paper :: Base(q) != ".git" && Base(q) != ".vscode"
    requires [".git"] !in artifacts && [".vscode"] !in artifacts
    ensures Main(paper, previous, copyWalk, flattenWalk, codes, artifacts, zipWalk).Done?
    ensures var r := Main(paper, previous, copyWalk, flattenWalk, codes, artifacts, zipWalk);
            ValidWalk(r.workspace[[ArchiveName] := partial], zipWalk) ==>
              && (forall p :: (exists i | 0 <= i < |r.archive| :: r.archive[i].name == p)
                              <==> p in r.workspace && Base(p) != ArchiveName)
              && (forall i, j | 0 <= i < j < |r.archive| :: r.archive[i].name != r.archive[j].name)
              && (forall i | 0 <= i < |r.archive| :: r.archive[i].name in r.workspace && r.archive[i].content == r.workspace[r.archive[i].name])
  {
    var prepared := Prepare(paper, previous, copyWalk, flattenWalk);
    MainIsFinish(paper, previous, copyWalk, flattenWalk, codes, artifacts, zipWalk);
    PreparedFlat(paper, previous, copyWalk, flattenWalk);
    FinishCompiled(prepared, artifacts, zipWalk, partial);
    var r := Finish(prepared + artifacts, zipWalk);
    assert Main(paper, previous, copyWalk, flattenWalk, codes, artifacts, zipWalk) == r;
  }
}

=== FILE: texpasses.dfy ===
/**
 The three text passes over the flattened workspace: `update_tex_files`
 (drops the `figures/` prefix), `remove_comments_from_tex_files` (drops
 comment lines) and `add_arxiv_command` (appends the pass-count directive to
 the main document).
 */
module TexPasses {
  import opened Text
  import opened Workspace

  /** The figure-path prefix removed from `.tex` sources. */
  const FigurePrefix: string := "figures/"

  /** The line appended to the main document so that arXiv runs enough passes. */
  const Directive: string :=
    "\\typeout{" + "get arXiv to do 4 passes: " + "Label(s) may have changed. Rerun}"

  /** A root entry whose name ends in `.tex`: the files `os.listdir` yields to both passes. */
  predicate IsTexFile(p: Path) {
    IsRoot(p) && EndsWith(Base(p), ".tex")
  }

  // ---------------------------------------------------------------- path rewrite

  /** `content.replace('figures/', '')`. */
  function RewriteFigurePaths(content: string): string {
    ReplaceAll(content, FigurePrefix, "")
  }

  /** The rewrite shortens the text by eight characters per occurrence it removes, and leaves text without the prefix alone. */
  lemma RewriteFigurePathsEffect(content: string)
    ensures |RewriteFigurePaths(content)| == |content| - |FigurePrefix| * CountOccurrences(content, FigurePrefix)
    ensures RewriteFigurePaths(content) == content <==> !Occurs(content, FigurePrefix)
  {
    ReplaceAllLength(content, FigurePrefix, "");
    RemoveAllIdentityIff(content, FigurePrefix);
  }

  /** A figure path loses its directory: `figures/foo.png` becomes `foo.png`. */
  lemma RewriteFigureReference()
    ensures RewriteFigurePaths("figures/foo.png") == "foo.png"
  {
    var s := "figures/foo.png";
    assert s[..8] == FigurePrefix;
    assert s[8..] == "foo.png";
  }

  /**
   Text before a figure path is copied unchanged when it holds no `f`, the
   prefix's first character; the prefix is dropped and the rest is rewritten
   on its own.
   */
  lemma RewriteInContext(before: string, after: string)
    requires forall i | 0 <= i < |before| :: before[i] != 'f'
    ensures RewriteFigurePaths(before + FigurePrefix + after) == before + RewriteFigurePaths(after)
  {
    assert FigurePrefix[0] == 'f';
    ReplaceSkipsPrefix(before, FigurePrefix + after, FigurePrefix, "");
    var s := FigurePrefix + after;
    assert s[..8] == FigurePrefix;
    assert s[8..] == after;
    assert before + FigurePrefix + after == before + s;
  }

  /** The rewrite is not idempotent: removing one occurrence can join the text around it into a new one. */
  lemma RewriteNotIdempotent()
    ensures RewriteFigurePaths("figfigures/ures/") == "figures/"
    ensures RewriteFigurePaths("figures/") == ""
  {
    var s := "figfigures/ures/";
    assert s[..8][3] != FigurePrefix[3];
    assert s[1..][..8][0] != FigurePrefix[0];
    assert s[2..][..8][0] != FigurePrefix[0];
    assert s[1..][1..] == s[2..];
    assert s[2..][1..] == s[3..];
    assert s[3..][..8] == FigurePrefix;
    assert s[3..][8..] == "ures/";
    assert "figures/"[..8] == FigurePrefix;
    assert "figures/"[8..] == "";
  }

  /** `update_tex_files`: every root `.tex` file is rewritten; every other file is left alone. */
  function UpdateTexFiles(ws: Files): (r: Files)
    ensures r.Keys == ws.Keys
    ensures forall p | p in ws && !IsTexFile(p) :: r[p] == ws[p]
    ensures forall p | p in ws && IsTexFile(p) ::
              |r[p]| == |ws[p]| - |FigurePrefix| * CountOccurrences(ws[p], FigurePrefix)
    ensures forall p | p in ws && IsTexFile(p) && !Occurs(ws[p], FigurePrefix) :: r[p] == ws[p]
  {
    var r := map p | p in ws :: if IsTexFile(p) then RewriteFigurePaths(ws[p]) else ws[p];
    assert forall p | p in ws :: RewriteFigurePaths(ws[p]) == ReplaceAll(ws[p], FigurePrefix, "");
    forall p | p in ws && IsTexFile(p)
      ensures |r[p]| == |ws[p]| - |FigurePrefix| * CountOccurrences(ws[p], FigurePrefix)
      ensures !Occurs(ws[p], FigurePrefix) ==> r[p] == ws[p]
    {
      RewriteFigurePathsEffect(ws[p]);
    }
    r
  }

  // ---------------------------------------------------------------- comment strip

  /** `line.strip().startswith('%')`. */
  predicate IsCommentLine(line: string) {
    StartsWith(Strip(line), "%")
  }

  /** The first character that is not white space, as an index: `|line|` when there is none. */
  function FirstNonSpace(line: string): (k: nat)
    ensures k <= |line|
    ensures forall j | 0 <= j < k :: IsSpace(line[j])
    ensures k < |line| ==> !IsSpace(line[k])
  {
    TrimLeftSpec(line);
    |line| - |TrimLeft(line)|
  }

  /** A line is a comment line exactly when its first character that is not white space is `%`. */
  lemma CommentLineIff(line: string)
    ensures IsCommentLine(line) <==> FirstNonSpace(line) < |line| && line[FirstNonSpace(line)] == '%'
  {
    var t := TrimLeft(line);
    var k := FirstNonSpace(line);
    var r := TrimRight(t);
    TrimLeftSpec(line);
    TrimRightSpec(t);
    assert Strip(line) == r;
    if k < |line| {
      assert t[0] == line[k];
      assert |r| > 0;
      assert r[0] == t[0];
    } else {
      assert |r| == 0;
    }
  }

  /** The same, with the first non-white-space character written as a quantifier. */
  lemma CommentLineIffExists(line: string)
    ensures IsCommentLine(line) <==>
            exists i | 0 <= i < |line| :: line[i] == '%' && forall j | 0 <= j < i :: IsSpace(line[j])
  {
    CommentLineIff(line);
    var k := FirstNonSpace(line);
    if exists i | 0 <= i < |line| :: line[i] == '%' && forall j | 0 <= j < i :: IsSpace(line[j]) {
      var i :| 0 <= i < |line| && line[i] == '%' && forall j | 0 <= j < i :: IsSpace(line[j]);
      assert !IsSpace('%');
      assert k <= i;
      assert !(k < i);
    }
  }

  /** A line whose first character is neither white space nor `%` is not a comment line. */
  lemma NotCommentByFirstChar(line: string)
    requires |line| > 0 && !IsSpace(line[0]) && line[0] != '%'
    ensures !IsCommentLine(line)
  {
    assert TrimLeft(line) == line;
    var r := TrimRight(line);
    TrimRightSpec(line);
    assert |r| > 0;
    assert r[0] == line[0];
  }

  /** White-space-only lines and lines that open with an escaped `\%` are kept. */
  lemma KeptLines(line: string)
    ensures (forall i | 0 <= i < |line| :: IsSpace(line[i])) ==> !IsCommentLine(line)
    ensures StartsWith(line, "\\%") ==> !IsCommentLine(line)
  {
    CommentLineIff(line);
    if StartsWith(line, "\\%") {
      assert line[0] == "\\%"[0];
      NotCommentByFirstChar(line);
    }
  }

  /** The list comprehension keeping the lines that are not comment lines. */
  function StripComments(lines: seq<string>): (r: seq<string>)
    ensures |r| <= |lines|
    ensures forall i | 0 <= i < |r| :: !IsCommentLine(r[i])
    decreases |lines|
  {
    if |lines| == 0 then []
    else if IsCommentLine(lines[0]) then StripComments(lines[1..])
    else [lines[0]] + StripComments(lines[1..])
  }

  /** A line is kept exactly when it is in the input and is not a comment line. */
  lemma {:induction false} StripCommentsMembership(lines: seq<string>, line: string)
    ensures line in StripComments(lines) <==> line in lines && !IsCommentLine(line)
    decreases |lines|
  {
    if |lines| > 0 {
      StripCommentsMembership(lines[1..], line);
      assert line in lines <==> line == lines[0] || line in lines[1..] by {
        assert lines == [lines[0]] + lines[1..];
      }
    }
  }

  /** `a` is obtained from `b` by deleting elements, keeping the order of the rest. */
  predicate IsSubsequence(a: seq<string>, b: seq<string>)
    decreases |b|
  {
    || |a| == 0
    || (&& |b| > 0
        && ((a[0] == b[0] && IsSubsequence(a[1..], b[1..])) || IsSubsequence(a, b[1..])))
  }

  /** The kept lines appear in their original relative order. */
  lemma {:induction false} StripCommentsIsSubsequence(lines: seq<string>)
    ensures IsSubsequence(StripComments(lines), lines)
    decreases |lines|
  {
    if |lines| > 0 {
      StripCommentsIsSubsequence(lines[1..]);
      var rest := StripComments(lines[1..]);
      if !IsCommentLine(lines[0]) {
        assert ([lines[0]] + rest)[1..] == rest;
      }
    }
  }

  /** Stripping twice is stripping once. */
  lemma {:induction false} StripCommentsIdempotent(lines: seq<string>)
    ensures StripComments(StripComments(lines)) == StripComments(lines)
    decreases |lines|
  {
    if |lines| > 0 {
      StripCommentsIdempotent(lines[1..]);
      var rest := StripComments(lines[1..]);
      if !IsCommentLine(lines[0]) {
        assert ([lines[0]] + rest)[1..] == rest;
      }
    }
  }

  /** Stripping distributes over concatenation. */
  lemma {:induction false} StripCommentsAppend(a: seq<string>, b: seq<string>)
    ensures StripComments(a + b) == StripComments(a) + StripComments(b)
    decreases |a|
  {
    if |a| == 0 {
      assert a + b == b;
    } else {
      assert (a + b)[1..] == a[1..] + b;
      StripCommentsAppend(a[1..], b);
    }
  }

  /** Kept lines of `readlines()` output still have its shape. */
  lemma {:induction false} StripCommentsWellFormed(lines: seq<string>)
    requires WellFormedLines(lines)
    ensures WellFormedLines(StripComments(lines))
    decreases |lines|
  {
    if |lines| > 0 {
      var rest := lines[1..];
      assert WellFormedLines(rest) by {
        forall i | 0 <= i < |rest|
          ensures LineShapedAt(rest, i)
        {
          assert rest[i] == lines[i + 1];
          assert LineShapedAt(lines, i + 1);
        }
      }
      StripCommentsWellFormed(rest);
      var kept := StripComments(rest);
      if !IsCommentLine(lines[0]) {
        var r := [lines[0]] + kept;
        assert LineShapedAt(lines, 0);
        forall i | 0 <= i < |r|
          ensures LineShapedAt(r, i)
        {
          if i > 0 {
            assert r[i] == kept[i - 1];
            assert LineShapedAt(kept, i - 1);
          }
        }
      }
    }
  }

  /** The comment pass on one file's text: read the lines, keep the non-comment ones, write them back. */
  function StripCommentLines(content: string): string {
    Concat(StripComments(SplitLines(content)))
  }

  /** Running the comment pass a second time changes nothing. */
  lemma StripCommentLinesIdempotent(content: string)
    ensures StripCommentLines(StripCommentLines(content)) == StripCommentLines(content)
  {
    var kept := StripComments(SplitLines(content));
    SplitLinesWellFormed(content);
    StripCommentsWellFormed(SplitLines(content));
    SplitConcat(kept);
    StripCommentsIdempotent(SplitLines(content));
  }

  /** The comment pass keeps exactly the non-comment lines of the text, in order. */
  lemma StripCommentLinesKeeps(content: string)
    ensures SplitLines(StripCommentLines(content)) == StripComments(SplitLines(content))
    ensures IsSubsequence(SplitLines(StripCommentLines(content)), SplitLines(content))
    ensures forall line | line in SplitLines(StripCommentLines(content)) :: !IsCommentLine(line)
  {
    SplitLinesWellFormed(content);
    StripCommentsWellFormed(SplitLines(content));
    SplitConcat(StripComments(SplitLines(content)));
    StripCommentsIsSubsequence(SplitLines(content));
  }

  /** `remove_comments_from_tex_files`: the comment pass on every root `.tex` file; every other file is left alone. */
  function RemoveCommentsFromTexFiles(ws: Files): (r: Files)
    ensures r.Keys == ws.Keys
    ensures forall p | p in ws && !IsTexFile(p) :: r[p] == ws[p]
    ensures forall p | p in ws && IsTexFile(p) :: SplitLines(r[p]) == StripComments(SplitLines(ws[p]))
  {
    var r := map p | p in ws :: if IsTexFile(p) then StripCommentLines(ws[p]) else ws[p];
    forall p | p in ws && IsTexFile(p)
      ensures SplitLines(r[p]) == StripComments(SplitLines(ws[p]))
    {
      StripCommentLinesKeeps(ws[p]);
    }
    r
  }

  // ---------------------------------------------------------------- directive injection

  /** What `add_arxiv_command` writes: a newline, then the directive. */
  const ArxivSuffix: string := "\n" + Directive

  /** `add_arxiv_command`: opening in append mode creates the main file when it is missing. */
  function AddArxivCommand(ws: Files, main: string): (r: Files)
    ensures r.Keys == ws.Keys + {[main]}
    ensures forall p | p in ws && p != [main] :: r[p] == ws[p]
    ensures var before := if [main] in ws then ws[[main]] else "";
            && |r[[main]]| == |before| + |ArxivSuffix|
            && r[[main]][..|before|] == before
            && r[[main]][|before|..] == ArxivSuffix
  {
    var before := if [main] in ws then ws[[main]] else "";
    var after := before + ArxivSuffix;
    assert after[..|before|] == before;
    assert after[|before|..] == ArxivSuffix;
    ws[[main] := after]
  }

  /** The main file after `add_arxiv_command` is its old contents (nothing if it was missing) followed by the directive. */
  lemma AppendedDirective(ws: Files, main: string)
    ensures var before := if [main] in ws then ws[[main]] else "";
            [main] in AddArxivCommand(ws, main) && AddArxivCommand(ws, main)[[main]] == before + ArxivSuffix
  {
    var before := if [main] in ws then ws[[main]] else "";
    var r := AddArxivCommand(ws, main)[[main]];
    assert r == r[..|before|] + r[|before|..];
  }

  /** The appended directive is not a comment line. */
  lemma DirectiveIsNotComment()
    ensures !IsCommentLine(Directive)
  {
    assert Directive[0] == '\\';
    NotCommentByFirstChar(Directive);
  }

  /** The directive is a single line. */
  lemma DirectiveIsOneLine()
    ensures SplitLines(Directive) == [Directive]
  {
    assert forall i | 0 <= i < |Directive| :: Directive[i] != '\n';
    SplitOneLine(Directive);
  }

  /** A later comment pass over the main document would keep the directive as its last line. */
  lemma DirectiveSurvivesStrip(content: string)
    ensures StripCommentLines(content + ArxivSuffix) == StripCommentLines(content + "\n") + Directive
  {
    var a := content + "\n";
    assert a + Directive == content + ArxivSuffix;
    SplitLinesAppend(a, Directive);
    DirectiveIsOneLine();
    DirectiveIsNotComment();
    var head := StripComments(SplitLines(a));
    StripCommentsAppend(SplitLines(a), [Directive]);
    assert StripComments([Directive]) == [Directive];
    ConcatAppend(head, [Directive]);
    assert Concat([Directive]) == Directive;
  }
}

=== FILE: text.dfy ===
/**
 Character and string operations the packaging script relies on, stated with
 Python's semantics: `str.isspace`, `str.strip`, `str.startswith`,
 `str.endswith`, `str.replace` and the line splitting done by `readlines()`.
 */
module Text {

  /** Python's `str.isspace` for one character (Unicode white space). */
  predicate IsSpace(c: char) {
    var n := c as int;
    || (9 <= n <= 13) || (28 <= n <= 32) || n == 0x85 || n == 0xA0
    || n == 0x1680 || (0x2000 <= n <= 0x200A) || n == 0x2028 || n == 0x2029
    || n == 0x202F || n == 0x205F || n == 0x3000
  }

  predicate StartsWith(s: string, prefix: string) {
    |prefix| <= |s| && s[..|prefix|] == prefix
  }

  predicate EndsWith(s: string, suffix: string) {
    |suffix| <= |s| && s[|s| - |suffix|..] == suffix
  }

  /** `s.lstrip()`. */
  function TrimLeft(s: string): string
    decreases |s|
  {
    if |s| > 0 && IsSpace(s[0]) then TrimLeft(s[1..]) else s
  }

  /** `s.rstrip()`. */
  function TrimRight(s: string): string
    decreases |s|
  {
    if |s| > 0 && IsSpace(s[|s| - 1]) then TrimRight(s[..|s| - 1]) else s
  }

  /** `lstrip` drops exactly the longest all-white-space prefix. */
  lemma {:induction false} TrimLeftSpec(s: string)
    ensures |TrimLeft(s)| <= |s| && TrimLeft(s) == s[|s| - |TrimLeft(s)|..]
    ensures |TrimLeft(s)| > 0 ==> !IsSpace(TrimLeft(s)[0])
    ensures forall i | 0 <= i < |s| - |TrimLeft(s)| :: IsSpace(s[i])
    decreases |s|
  {
    if |s| > 0 && IsSpace(s[0]) {
      TrimLeftSpec(s[1..]);
    }
  }

  /** `rstrip` drops exactly the longest all-white-space suffix. */
  lemma {:induction false} TrimRightSpec(s: string)
    ensures |TrimRight(s)| <= |s| && TrimRight(s) == s[..|TrimRight(s)|]
    ensures |TrimRight(s)| > 0 ==> !IsSpace(TrimRight(s)[|TrimRight(s)| - 1])
    ensures forall i | |TrimRight(s)| <= i < |s| :: IsSpace(s[i])
    decreases |s|
  {
    if |s| > 0 && IsSpace(s[|s| - 1]) {
      TrimRightSpec(s[..|s| - 1]);
    }
  }

  /** `s.strip()`. */
  function Strip(s: string): string {
    TrimRight(TrimLeft(s))
  }

  /** True when `pat` occurs in `s` starting at index `i`. */
  predicate OccursAt(s: string, pat: string, i: int) {
    0 <= i && i + |pat| <= |s| && s[i..i + |pat|] == pat
  }

  /** True when `pat` occurs somewhere in `s`. */
  predicate Occurs(s: string, pat: string) {
    exists i | 0 <= i <= |s| :: OccursAt(s, pat, i)
  }

  /**
   Number of non-overlapping occurrences of `pat` found scanning `s` from the
   left, which is what `s.count(pat)` returns and what `s.replace` replaces.
   */
  function CountOccurrences(s: string, pat: string): (n: nat)
    requires |pat| > 0
    ensures n == 0 <==> !Occurs(s, pat)
    ensures n * |pat| <= |s|
    decreases |s|
  {
    if |s| < |pat| then 0
    else if s[..|pat|] == pat then
      var rest := CountOccurrences(s[|pat|..], pat);
      assert OccursAt(s, pat, 0);
      1 + rest
    else
      var rest := CountOccurrences(s[1..], pat);
      ShiftOccurs(s, pat);
      rest
  }

  /** When `s` does not start with `pat`, the occurrences of `pat` in `s` are those of `s[1..]`. */
  lemma ShiftOccurs(s: string, pat: string)
    requires |pat| > 0 && |pat| <= |s| && s[..|pat|] != pat
    ensures Occurs(s, pat) <==> Occurs(s[1..], pat)
  {
    if Occurs(s, pat) {
      var i :| 0 <= i <= |s| && OccursAt(s, pat, i);
      assert i != 0;
      assert s[1..][i - 1..i - 1 + |pat|] == s[i..i + |pat|];
      assert OccursAt(s[1..], pat, i - 1);
    }
    if Occurs(s[1..], pat) {
      var i :| 0 <= i <= |s[1..]| && OccursAt(s[1..], pat, i);
      assert s[i + 1..i + 1 + |pat|] == s[1..][i..i + |pat|];
      assert OccursAt(s, pat, i + 1);
    }
  }

  /**
   `s.replace(pat, rep)` for a non-empty `pat`: every non-overlapping
   occurrence, found left to right, is replaced by `rep`.
   */
  function ReplaceAll(s: string, pat: string, rep: string): string
    requires |pat| > 0
    decreases |s|
  {
    if |s| < |pat| then s
    else if s[..|pat|] == pat then rep + ReplaceAll(s[|pat|..], pat, rep)
    else [s[0]] + ReplaceAll(s[1..], pat, rep)
  }

  /** Each replacement changes the length by `|rep| - |pat|`, and nothing else does. */
  lemma {:induction false} ReplaceAllLength(s: string, pat: string, rep: string)
    requires |pat| > 0
    ensures |ReplaceAll(s, pat, rep)| + CountOccurrences(s, pat) * |pat|
         == |s| + CountOccurrences(s, pat) * |rep|
    decreases |s|
  {
    if |s| < |pat| {
    } else if s[..|pat|] == pat {
      var t := s[|pat|..];
      ReplaceAllLength(t, pat, rep);
      assert |ReplaceAll(s, pat, rep)| == |rep| + |ReplaceAll(t, pat, rep)|;
      assert CountOccurrences(s, pat) == CountOccurrences(t, pat) + 1;
      OneMoreOccurrence(|ReplaceAll(t, pat, rep)|, |t|, CountOccurrences(t, pat), |pat|, |rep|);
    } else {
      ReplaceAllLength(s[1..], pat, rep);
    }
  }

  /** The arithmetic step of ReplaceAllLength: one more occurrence adds `|pat|` on one side and `|rep|` on the other. */
  lemma OneMoreOccurrence(out: int, len: int, n: nat, p: nat, r: nat)
    requires out + n * p == len + n * r
    ensures (r + out) + (n + 1) * p == (p + len) + (n + 1) * r
  {
    assert (n + 1) * p == n * p + p;
    assert (n + 1) * r == n * r + r;
  }

  /** Text in which `pat` does not occur is returned unchanged. */
  lemma {:induction false} ReplaceAbsent(s: string, pat: string, rep: string)
    requires |pat| > 0
    requires !Occurs(s, pat)
    ensures ReplaceAll(s, pat, rep) == s
    decreases |s|
  {
    if |s| >= |pat| {
      assert !OccursAt(s, pat, 0);
      ShiftOccurs(s, pat);
      ReplaceAbsent(s[1..], pat, rep);
      assert [s[0]] + s[1..] == s;
    }
  }

  /** A prefix holding no occurrence of the first character of `pat` passes through unchanged. */
  lemma {:induction false} ReplaceSkipsPrefix(a: string, b: string, pat: string, rep: string)
    requires |pat| > 0
    requires forall i | 0 <= i < |a| :: a[i] != pat[0]
    ensures ReplaceAll(a + b, pat, rep) == a + ReplaceAll(b, pat, rep)
    decreases |a|
  {
    if |a| == 0 {
      assert a + b == b;
    } else if |a + b| < |pat| {
      assert |b| < |pat|;
    } else {
      assert (a + b)[..|pat|][0] != pat[0];
      assert (a + b)[1..] == a[1..] + b;
      ReplaceSkipsPrefix(a[1..], b, pat, rep);
      assert [a[0]] + a[1..] == a;
    }
  }

  /** Removing `pat` leaves `s` unchanged exactly when `pat` does not occur in it. */
  lemma RemoveAllIdentityIff(s: string, pat: string)
    requires |pat| > 0
    ensures ReplaceAll(s, pat, "") == s <==> !Occurs(s, pat)
  {
    ReplaceAllLength(s, pat, "");
    if !Occurs(s, pat) {
      ReplaceAbsent(s, pat, "");
    }
  }

  /** The concatenation of a sequence of strings. */
  function Concat(parts: seq<string>): string
    decreases |parts|
  {
    if |parts| == 0 then "" else parts[0] + Concat(parts[1..])
  }

  lemma {:induction false} ConcatAppend(a: seq<string>, b: seq<string>)
    ensures Concat(a + b) == Concat(a) + Concat(b)
    decreases |a|
  {
    if |a| == 0 {
      assert a + b == b;
    } else {
      assert (a + b)[1..] == a[1..] + b;
      ConcatAppend(a[1..], b);
    }
  }

  /** Length of the first line of a non-empty text: up to and including the first newline, or all of it. */
  function FirstLineLength(s: string): (n: nat)
    requires |s| > 0
    ensures 0 < n <= |s|
    ensures forall i | 0 <= i < n - 1 :: s[i] != '\n'
    ensures n < |s| ==> s[n - 1] == '\n'
    decreases |s|
  {
    if s[0] == '\n' || |s| == 1 then 1 else 1 + FirstLineLength(s[1..])
  }

  /** The first-line length is the unique cut that the contract of FirstLineLength describes. */
  lemma {:induction false} FirstLineLengthIs(s: string, n: nat)
    requires 0 < n <= |s|
    requires forall i | 0 <= i < n - 1 :: s[i] != '\n'
    requires n < |s| ==> s[n - 1] == '\n'
    ensures FirstLineLength(s) == n
    decreases |s|
  {
    if s[0] == '\n' || |s| == 1 {
    } else {
      assert n > 1;
      FirstLineLengthIs(s[1..], n - 1);
    }
  }

  /**
   The lines `readlines()` returns: each line keeps its terminating newline,
   and the last one may lack it.
   */
  function SplitLines(s: string): seq<string>
    decreases |s|
  {
    if |s| == 0 then [] else [s[..FirstLineLength(s)]] + SplitLines(s[FirstLineLength(s)..])
  }

  /** Joining the lines read from a text gives the text back. */
  lemma {:induction false} SplitLinesConcat(s: string)
    ensures Concat(SplitLines(s)) == s
    decreases |s|
  {
    if |s| > 0 {
      var n := FirstLineLength(s);
      var rest := SplitLines(s[n..]);
      SplitLinesConcat(s[n..]);
      assert ([s[..n]] + rest)[1..] == rest;
      assert s[..n] + s[n..] == s;
    }
  }

  /** The lines read from a text have the shape `readlines()` promises. */
  lemma {:induction false} SplitLinesWellFormed(s: string)
    ensures WellFormedLines(SplitLines(s))
    decreases |s|
  {
    if |s| > 0 {
      var n := FirstLineLength(s);
      var rest := SplitLines(s[n..]);
      var lines := [s[..n]] + rest;
      assert SplitLines(s) == lines;
      SplitLinesWellFormed(s[n..]);
      forall i | 0 <= i < |lines|
        ensures LineShapedAt(lines, i)
      {
        if i > 0 {
          assert lines[i] == rest[i - 1];
          assert LineShapedAt(rest, i - 1);
        } else if |rest| > 0 {
          assert n < |s|;
        }
      }
    }
  }

  /** The `i`-th line is non-empty, holds a newline only at its end, and ends with one unless it is the last. */
  predicate LineShapedAt(lines: seq<string>, i: int)
    requires 0 <= i < |lines|
  {
    && |lines[i]| > 0
    && (forall j | 0 <= j < |lines[i]| - 1 :: lines[i][j] != '\n')
    && (i < |lines| - 1 ==> lines[i][|lines[i]| - 1] == '\n')
  }

  /** The shape of a `readlines()` result, line by line. */
  predicate WellFormedLines(lines: seq<string>) {
    forall i | 0 <= i < |lines| :: LineShapedAt(lines, i)
  }

  /** Helper: a text ending in a newline keeps its first line when more text follows. */
  lemma FirstLineOfAppend(a: string, b: string)
    requires |a| > 0 && a[|a| - 1] == '\n'
    ensures SplitLines(a + b) == [a[..FirstLineLength(a)]] + SplitLines(a[FirstLineLength(a)..] + b)
  {
    var n := FirstLineLength(a);
    FirstLineLengthIs(a + b, n);
    assert (a + b)[..n] == a[..n];
    assert (a + b)[n..] == a[n..] + b;
  }

  /** Reading lines back from text that ends at a line boundary splits the two parts independently. */
  lemma {:induction false} SplitLinesAppend(a: string, b: string)
    requires |a| == 0 || a[|a| - 1] == '\n'
    ensures SplitLines(a + b) == SplitLines(a) + SplitLines(b)
    decreases |a|
  {
    if |a| == 0 {
      assert a + b == b;
    } else {
      var n := FirstLineLength(a);
      var line, tail := a[..n], a[n..];
      FirstLineOfAppend(a, b);
      assert |tail| == 0 || tail[|tail| - 1] == a[|a| - 1];
      SplitLinesAppend(tail, b);
      assert SplitLines(a) == [line] + SplitLines(tail);
      ConsAssociates(SplitLines(a + b), SplitLines(tail + b), SplitLines(a), line, SplitLines(tail), SplitLines(b));
    }
  }

  /** Helper: `x == [h] + (r + o)` and `z == [h] + r` give `x == z + o`. */
  lemma ConsAssociates<T>(x: seq<T>, y: seq<T>, z: seq<T>, h: T, r: seq<T>, o: seq<T>)
    requires x == [h] + y && y == r + o && z == [h] + r
    ensures x == z + o
  {
    assert [h] + (r + o) == ([h] + r) + o;
  }

  /** A non-empty text whose only newline, if any, is its last character is read back as one line. */
  lemma SplitOneLine(s: string)
    requires |s| > 0
    requires forall i | 0 <= i < |s| - 1 :: s[i] != '\n'
    ensures SplitLines(s) == [s]
  {
    FirstLineLengthIs(s, |s|);
    assert s[..|s|] == s;
    assert s[|s|..] == [];
  }

  /** Writing well-formed lines and reading them back gives the same lines. */
  lemma {:induction false} SplitConcat(lines: seq<string>)
    requires WellFormedLines(lines)
    ensures SplitLines(Concat(lines)) == lines
    decreases |lines|
  {
    if |lines| > 0 {
      var head := lines[0];
      var rest := lines[1..];
      assert LineShapedAt(lines, 0);
      SplitOneLine(head);
      assert WellFormedLines(rest) by {
        forall i | 0 <= i < |rest|
          ensures LineShapedAt(rest, i)
        {
          assert rest[i] == lines[i + 1];
          assert LineShapedAt(lines, i + 1);
        }
      }
      SplitConcat(rest);
      if |rest| == 0 {
        assert Concat(lines) == head + Concat(rest);
        assert Concat(lines) == head;
      } else {
        SplitLinesAppend(head, Concat(rest));
      }
      assert [head] + rest == lines;
    }
  }
}

=== FILE: workspace.dfy ===
/**
 The scratch workspace as a value: a map from a file's path, as the list of
 its components relative to the workspace root, to the file's contents.
 Directories are implicit: a directory exists while some file lies under it.
 Directory-walk order (`os.walk`) is not computed here but supplied by the
 caller as a sequence of paths.
 */
module Workspace {

  /** Path components relative to the workspace root; `["main.tex"]` lies at the root. */
  type Path = seq<string>

  /** The files of a directory tree, by relative path. */
  type Files = map<Path, string>

  /** The final path component (`os.path.basename`). */
  function Base(p: Path): string {
    if |p| == 0 then "" else p[|p| - 1]
  }

  /** A file directly in the workspace root. */
  predicate IsRoot(p: Path) {
    |p| == 1
  }

  /** Every file has at least one path component. */
  predicate WellFormed(ws: Files) {
    forall p | p in ws :: |p| > 0
  }

  /**
   What a top-down `os.walk` guarantees about the order in which it yields
   the files of `ws`: each file exactly once, and the root's own files before
   any file of a sub-directory.
   */
  predicate ValidWalk(ws: Files, walk: seq<Path>) {
    && (forall i | 0 <= i < |walk| :: walk[i] in ws)
    && (forall p | p in ws :: p in walk)
    && (forall i, j | 0 <= i < j < |walk| :: walk[i] != walk[j])
    && (forall i, j | 0 <= i < j < |walk| && IsRoot(walk[j]) :: IsRoot(walk[i]))
  }

  /** `clean_tmp_directory`: whatever the scratch directory held, it is empty afterwards. */
  function CleanTmpDirectory(previous: Files): (r: Files)
    ensures |r| == 0
  {
    map[]
  }

  /**
   `create_deep_copy`: each file of `src`, in walk order, is copied to the
   same relative path under `dst`, replacing what was there.
   */
  function CreateDeepCopy(src: Files, dst: Files, walk: seq<Path>): Files
    decreases |walk|
  {
    if |walk| == 0 then dst
    else
      var copied := CreateDeepCopy(src, dst, walk[..|walk| - 1]);
      var p := walk[|walk| - 1];
      if p in src then copied[p := src[p]] else copied
  }

  /** `a` names a directory that holds `b`, directly or further down. */
  predicate IsProperPrefix(a: Path, b: Path) {
    |a| < |b| && a == b[..|a|]
  }

  /**
   No file of the destination sits where the source has a directory, and no
   file of the source sits where the destination has a directory. Only then
   is `create_deep_copy` a plain overlay: otherwise `copy2` raises
   `NotADirectoryError` or copies the file into the directory.
   */
  predicate NoPathClash(src: Files, dst: Files) {
    forall p, q | p in src && q in dst :: !IsProperPrefix(q, p) && !IsProperPrefix(p, q)
  }

  /**
   After copying the files a walk lists into a destination that does not
   clash with the source, the destination is overlaid with exactly those
   source files.
   */
  lemma {:induction false} DeepCopyOverlays(src: Files, dst: Files, walk: seq<Path>)
    requires forall i | 0 <= i < |walk| :: walk[i] in src
    requires NoPathClash(src, dst)
    ensures CreateDeepCopy(src, dst, walk) == dst + map p | p in src && p in walk :: src[p]
    decreases |walk|
  {
    if |walk| > 0 {
      var init := walk[..|walk| - 1];
      var last := walk[|walk| - 1];
      DeepCopyOverlays(src, dst, init);
      assert forall p :: p in walk <==> p in init || p == last by {
        assert walk == init + [last];
      }
      var before := map p | p in src && p in init :: src[p];
      var after := map p | p in src && p in walk :: src[p];
      assert after == before[last := src[last]];
      assert dst + after == (dst + before)[last := src[last]];
    }
  }

  /** A copy into a freshly cleaned directory holds exactly the source files, at the same paths, with the same contents. */
  lemma CleanThenCopyIsExact(src: Files, previous: Files, walk: seq<Path>)
    requires ValidWalk(src, walk)
    ensures CreateDeepCopy(src, CleanTmpDirectory(previous), walk) == src
  {
    DeepCopyOverlays(src, CleanTmpDirectory(previous), walk);
  }
}
